=== FILE: README.md ===
# Email body generator: the row loop, the industry lookup and the summary counts

The application takes a spreadsheet of prospects (`Company`, `Website`,
`Industry`, and an optional `Email Body`) and fills in `Email Body` row by
row. For each row it checks the website, downloads the page text, and asks a
language model for a cold-email body. The prompt names past clients of the
prospect's industry. This project models the part of that program that is
pure logic, as Dafny functions over immutable data:

- the generation loop over the rows (`app.py`, lines 142-214), as a left fold
  `BatchRun.RunPrefix` / `BatchRun.Run` and as the imperative loop
  `BatchRun.RunBatch`. The loop does the following:
  - skips filled rows;
  - stops when a stop is requested;
  - shares generated bodies between spellings of one company through a
    run-scoped cache;
  - turns every failure into an `ERROR:` text in the row;
- the body of the loop for one row, `Processor.ProcessRow`, with the website
  download and the model call as parameters (`Processor.Env`). This includes
  the progress statistics taken at the top of its `try` (`app.py`, line 149);
- the industry reference lookup (`app.py`, lines 135-140 and 167-169). It is a
  first-match substring search over an ordered table, with a fallback phrase
  (module `Industry`);
- `calculate_stats` (`app.py`, lines 38-48), as `Stats.CalculateStats`,
  including the `AttributeError` its `.str` accessor raises on an
  `Email Body` column that holds no text;
- the Python string operations all of these rely on (module `Text`):
  - `str.strip` over the full `str.isspace` set;
  - `str.lower`, for ASCII letters only;
  - `startswith`;
  - the substring test `in`;
  - `', '.join`.

Modules follow the program's structure:

| module | file | content |
|---|---|---|
| `Wrappers` | wrappers.dfy | `Option` and `Result` |
| `Text` | text.dfy | the string operations |
| `Sheet` | sheet.dfy | a row, the filled test, the company key |
| `Industry` | industry.dfy | the client-reference table and the lookup |
| `Stats` | stats.dfy | the summary counts |
| `Processor` | processor.dfy | one row: terminal states and `ProcessRow` |
| `BatchRun` | batch.dfy | the loop, its invariant and the run-level properties |
| `Scenarios` | scenarios.dfy | small end-to-end sheets |

How the outside world enters:

- **The page download.** `Env.scrape` returns the page text, or `None` when the
  request fails. The cut of that text to its first 3500 characters is
  modelled explicitly in `Processor.FetchSiteText`.
- **The model call.** `Env.generate` takes the structured `Prompt`, which
  holds the company profile, the company name, the site text, the few-shot
  examples and the reference text. It returns the reply or the exception
  message.
- **Calls may answer differently each time.** Both oracles also take the
  index of the row the call is made for. A row makes at most one download
  and one model call, so the same website or prompt can get a different
  answer at every row, as network calls can
  (`Scenarios.FailedGenerationIsRetried` fails on one row and succeeds on
  the next).
- **The stop button.** The flag is a function of the row index: it gives the
  value the loop reads when it reaches that row.
- **The per-row calls.** Each visit records the calls it makes, in order:
  `Fetch`, `Generate` and the `Pause` of `time.sleep`. This lets the
  contracts say which rows fetch, which generate and which pause.
- **The column's type.** pandas reads a CSV column whose every cell is
  empty as a column of numbers (all NaN), and its `.str` accessor then
  raises. The model takes the `Email Body` column to hold text exactly when
  some cell holds a value or the column has no cells (`Stats.HoldsText`).
  Writing any text into a cell turns the column into a text column, so the
  state of the column follows from the cells alone.

Four behaviours of the loop worth stating:

- **Failures are not cached.** Only successful bodies enter the cache, so a
  failed generation is retried by the next row of the same company
  (`Scenarios.FailedGenerationIsRetried`). What holds is at most one
  *successful* generation per company key (`BatchRun.RunAtMostOneSuccessPerCompany`).
- **The URL check is a prefix test on `"http"`.** It is not a check for
  `http://` or `https://`.
- **The pause does not depend on whether any call was made.** It follows every processed row
  that did not raise, including cache hits and URL or fetch errors. It is
  skipped after anything raised, because the `except` branch `continue`s
  past it (`Processor.PauseUnlessRaised`).
- **The progress statistics can fail the first row.** The statistics for the
  progress display are taken inside the row's `try`. On a sheet whose
  `Email Body` column holds no value in any cell, the first row the loop
  processes gets `ERROR: Can only use .str accessor with string values!`,
  with no fetch, no generation and no pause. That text makes the column a
  text column, so later rows are processed as usual
  (`BatchRun.RunStatsFailOnlyOnEmptyColumn`, `Scenarios.EmptyColumnFailsFirstRow`).
  If such a sheet is stopped before any row is visited, the summary shown
  after the run raises outside any `try` (`BatchRun.RunErrorsAreCounted`).

## Model

| member | source | states |
|---|---|---|
| Text.Trim | app.py:156 | `strip` returns the slice of its argument left after removing only whitespace from both ends; the result neither starts nor ends with whitespace |
| Text.TrimIgnoresPadding | app.py:206 | surrounding a text with any whitespace does not change what `strip` returns |
| Text.TrimIdempotent | app.py:206 | stripping a stripped text changes nothing |
| Text.LowerTrimCommute | app.py:156 | lower-casing and stripping commute, so the key can be computed in either order |
| Text.ContainsIff | app.py:167 | the left-to-right substring scan answers true exactly when the key occurs at some offset of the text |
| Sheet.CompanyKeyIgnoresPaddingAndCase | app.py:156 | the normalised company name ignores surrounding whitespace and ASCII case: `" Acme Corp "` and `"acme corp"` share a key |
| Sheet.CompanyKeyIdempotent | app.py:156 | a normalised name is its own normalised name |
| Industry.FirstMatchFrom | app.py:167 | the lookup yields the first table index, in table order, whose key occurs in the industry text; no earlier key occurs; `None` exactly when no key occurs |
| Industry.ClientReferencesListed | app.py:135-140 | every entry of the application's table names at least one client, and none reads as the generic phrase |
| Industry.ReferenceTextIsFirstMatch | app.py:167-169 | the reference text is the `", "`-joined client list of the first matching key in table order |
| Industry.GenericIffNoMatch | app.py:167-169 | the reference text is `top-tier clients` exactly when no key of the table occurs in the industry text |
| Processor.FetchSiteText | app.py:18-28 | the site text is missing exactly when the request failed; otherwise it is the prefix of the page text whose length is that of the whole text when it has at most 3500 characters, and exactly 3500 otherwise |
| Processor.ProcessRow | app.py:148-212 | one unfilled row: the statistics fail exactly when the frame's `Email Body` column holds no text; otherwise a cache hit exactly when the normalised company is cached; a generated body is cached under that key, which was not cached before; every other outcome leaves the cache unchanged; a processed row is always written and never skipped |
| Processor.ProcessRowIsTerminal | app.py:148-212 | every processed row ends in one of the terminal states: a statistics failure gives `ERROR: ` + the accessor message with no call at all; a cache hit copies the cached body and only pauses; a non-`http` website gives `ERROR: Invalid website URL` with no fetch; a failed or empty fetch gives `ERROR: Could not fetch website`; a raised generation gives `ERROR: ` + message with no pause; a success stores the stripped reply |
| Processor.TerminalDeterminesStep | app.py:148-212 | any step that satisfies the terminal states, fails on the statistics exactly when the column holds no text, and keeps the cache discipline is the step `ProcessRow` takes, so the terminal states specify the row completely |
| Processor.ProcessRowStatsFails | app.py:149 | on a frame whose `Email Body` column holds no text the row gets `ERROR: ` + the accessor message, the cache is unchanged and nothing is called, not even the pause |
| Processor.ProcessRowGenerates | app.py:205-208 | an uncached company whose website yields text and whose generation succeeds gets the stripped reply, cached under its key, after a fetch, a generation and the pause |
| Processor.ProcessRowRaises | app.py:210-212 | an uncached company whose generation raises gets `ERROR: ` + message, the cache is unchanged and no pause follows |
| Processor.ProcessRowGrowsCache | app.py:158-208 | processing a row keeps every cache entry and adds the row's key exactly when it generated |
| Processor.TerminalKeepsUnderExtension | app.py:158-159 | a terminal state stays valid when later rows add to the cache |
| Processor.ErrorBodiesCarryMarker | app.py:160-211 | every error outcome, the statistics failure included, leaves a body that starts with `ERROR:` |
| Processor.ErrorTextFilledIff | app.py:145 | both fixed error texts and the accessor error text are longer than ten characters; `ERROR: ` + message is longer than ten characters exactly when the message has more than three |
| Processor.RecordedErrorsAreFilled | app.py:211 | a row that ended in an error counts as already filled for the next run, except after a generator message of at most three characters |
| Processor.PauseUnlessRaised | app.py:209-212 | a processed row pauses exactly when nothing inside its `try` raised: neither the statistics nor the generation |
| Processor.PromptsAreBounded | app.py:163-205 | every prompt carries non-empty site text of at most 3500 characters, the row's own company name, the profile, the examples and the reference text of the lower-cased industry |
| Processor.FetchOnlyHttp | app.py:160-163 | only the row's own website is fetched, and only when it starts with `http` |
| BatchRun.RunPrefix | app.py:144-147 | after `n` passes the sheet keeps its length; without a stop exactly `n` rows have been visited; a stop is at the next row and rows from there on are untouched |
| BatchRun.RunKeepsRecords | app.py:144-214 | a run keeps the sheet's length and order and writes nothing but `Email Body` cells |
| BatchRun.RunRowsAreTerminal | app.py:144-214 | every visited row ends in the terminal state its outcome names |
| BatchRun.RunSkipsFilledRows | app.py:145 | a row whose body is longer than ten characters is left exactly as it was, and recorded as skipped if reached, whether or not a stop is requested |
| BatchRun.RunStopsAtFirstRequest | app.py:146-147 | the loop visits every row exactly when no unfilled row sees the stop; otherwise it ends at the first unfilled row that does, leaving that row and all later rows untouched |
| BatchRun.RunStopsAt | app.py:146-147 | a stop seen at the first unfilled row `k` that sees one ends the run at `k` |
| BatchRun.RunCacheHoldsOnlySuccesses | app.py:158-208 | the cache holds exactly the keys of rows that generated, each mapped to that row's body; failures are never cached |
| BatchRun.RunCachedTextsAgree | app.py:158-208 | two rows with the same normalised company that ended by generating or by a cache hit hold identical text |
| BatchRun.RunAtMostOneSuccessPerCompany | app.py:158-208 | at most one row per normalised company generates in a run |
| BatchRun.RunErrorsAreCounted | app.py:222-224 | the summary taken after the run raises exactly when no row was visited and the sheet's column held no text; otherwise every row the run left with an error is one of the rows it counts as errors, so their number is at most its `errors` |
| BatchRun.RunStatsFailOnlyOnEmptyColumn | app.py:148-149 | a visited row fails on the statistics exactly when it is the first row and the sheet's column held no text; such a first row, unless stopped, gets the accessor error and no call |
| BatchRun.StoppedStaysStopped | app.py:146-147 | once the loop has stopped, further passes change nothing |
| BatchRun.RunBatch | app.py:142-214 | the loop with `continue` and `break` computes exactly the fold `Run` |
| Stats.CalculateStats | app.py:38-48 | all four counts are zero without a frame or without an `Email Body` column; the call raises the accessor error exactly when the column holds no text; otherwise `generated` and `errors` count the matching cells, `total_processed` is their sum, and that sum is at most the row count |
| Stats.TallyCountsRows | app.py:46-47 | the running tally equals the number of rows counted as generated and as errors |
| Stats.ErrorIsNotGenerated | app.py:42-43 | a cell counted as an error is not counted as generated |
| Stats.NoRowCountedTwice | app.py:42-43 | the generated rows and the error rows are disjoint |
| Scenarios.FtpWebsiteIsRejected | app.py:160-161 | an `ftp://` website gives `ERROR: Invalid website URL` and only the pause |
| Scenarios.DeadWebsiteIsRecorded | app.py:163-165 | an unreachable `http` website gives `ERROR: Could not fetch website` after one fetch and the pause |
| Scenarios.AcmeSpellingsShareKey | app.py:156 | `"Acme Corp"` and `" acme corp "` share one key |
| Scenarios.SecondSpellingCopiesFirst | app.py:158-159 | of two spellings of one company, only the first generates; the second copies its text and calls nothing but the pause |
| Scenarios.FailedGenerationIsRetried | app.py:205-211 | after a raised generation the next row of the same company fetches and generates again, and a generator that now answers gives it the stripped reply |
| Scenarios.EmptyColumnFailsFirstRow | app.py:149 | on a two-row sheet whose `Email Body` cells are all empty, the first row gets the accessor error with no call and the second row generates |
| Scenarios.FirstKeyInTableOrderWins | app.py:167-169 | for `"industrial automation"` the reference text is the automation list, the first key in table order, even though `industrial` also occurs |

## Left out

- The Streamlit interface is not modelled, because it is presentation and rerun plumbing. This covers session state, buttons, the progress bar and the live metrics. The per-row call of `calculate_stats` is modelled only for whether it raises; the counts it returns are only displayed.
- The copy of the frame into session state after every row is not modelled, because it is persistence.
- HTTP and HTML parsing are replaced by the `scrape` parameter. Inside the download, only the cut to 3500 characters is modelled.
- The Gemini client and its configuration are replaced by the `generate` parameter.
- File reads of the profile and the examples, CSV and Excel I/O, and API-key management are not modelled: they are I/O and configuration. The profile and the rendered examples appear as fixed strings in `Env`.
- The wording of the prompt template is not modelled: only the values filled into it are, as `Prompt`.
- The length of the `time.sleep` delay is not modelled, because it is timing. Only its position is modelled, as a `Pause` call.
- Exceptions other than the generator's and the `.str` `AttributeError` of `calculate_stats` (app.py:149) are not modelled. In the source, any exception inside the `try` becomes `ERROR: ` + message with no pause. What remains unmodelled: an exception from `get_website_text` other than a `RequestException` (a parsing error, say), and exceptions from the Streamlit calls at the top of the `try`; and the `KeyError` of a sheet without a `Company`, `Website` or `Industry` column (app.py:153-155), which in the source gives every processed row `ERROR: ` + the column name in quotes, with no pause. `Row` assumes all three columns exist, and the download only ever returns a text or `None`.
- The `str()` conversion of non-string cells is not modelled. A missing `Email Body` (NaN) is `None`, and the other cells are taken to be strings. A column that pandas reads as numbers because its cells are digits is therefore not modelled; the only non-text column is one with no value at all.
- Stats.HoldsText: assumes that writing text into a column of numbers turns it into a text column. This is how pandas 2 handles the write, with a warning. A pandas that refuses the write raises inside the `except` handler at app.py:211, which nothing catches, so the run would end at the first row it processes, with that row unwritten.
- Text.Lower: maps only the ASCII letters A-Z. Python's `str.lower` also lower-cases other scripts, so two company names differing only in non-ASCII case get different keys here.
- Text.Join: its contract only states that the result starts with the first element. The full layout of the joined list is left to its definition.

=== FILE: batch.dfy ===
/** The generation loop over the whole sheet: rows are visited in index
    order; a filled row is skipped; the first unfilled row reached while a
    stop is requested ends the loop; every other row is processed and only
    its `Email Body` cell is written. The cache starts empty on every run. */
module BatchRun {
  import opened Wrappers
  import opened Sheet
  import opened Processor
  import Stats

  /** The state of the loop: the sheet as written so far, one visit record
      per row visited, the run's cache, and the row at which a stop ended
      the loop, if it did. */
  datatype Batch = Batch(rows: seq<Row>, log: seq<Visit>, cache: map<string, string>, stoppedAt: Option<nat>)

  /** The stop flag as the loop observes it when it reaches row `i`. */
  type StopFlag = nat -> bool

  /** The state before the first row. */
  function Start(src: seq<Row>): Batch {
    Batch(src, [], map[], None)
  }

  /** One pass of the loop body, on the next row to visit. */
  function VisitRow(b: Batch, stop: StopFlag, env: Env): Batch
    requires b.stoppedAt.None? && |b.log| < |b.rows|
  {
    var i := |b.log|;
    var row := b.rows[i];
    if Filled(row.body) then b.(log := b.log + [Visit(Skipped, [])])
    else if stop(i) then b.(stoppedAt := Some(i))
    else
      var s := ProcessRow(b.rows, i, b.cache, env);
      Batch(b.rows[i := row.(body := s.body)], b.log + [s.visit], s.cache, None)
  }

  /** The state after the loop has considered the first `n` rows, or after
      it stopped, whichever comes first. Rows not yet visited are as in
      `src`, and a stop leaves the stopping row unvisited. */
  function RunPrefix(src: seq<Row>, n: nat, stop: StopFlag, env: Env): (b: Batch)
    requires n <= |src|
    ensures |b.rows| == |src|
    ensures b.stoppedAt.None? ==> |b.log| == n
    ensures b.stoppedAt.Some? ==> b.stoppedAt.value == |b.log| < n
    ensures forall j :: |b.log| <= j < |src| ==> b.rows[j] == src[j]
    decreases n
  {
    if n == 0 then Start(src)
    else
      var b := RunPrefix(src, n - 1, stop, env);
      if b.stoppedAt.Some? then b else VisitRow(b, stop, env)
  }

  /** A whole run over the sheet. */
  function Run(src: seq<Row>, stop: StopFlag, env: Env): Batch {
    RunPrefix(src, |src|, stop, env)
  }

  /** The keys of the rows whose visit generated a new body. */
  ghost function SuccessKeys(src: seq<Row>, log: seq<Visit>): set<string>
    requires |log| <= |src|
    decreases |log|
  {
    if log == [] then {}
    else
      var n := |log| - 1;
      SuccessKeys(src, log[..n]) + (if log[n].outcome.Generated? then {CompanyKey(src[n].company)} else {})
  }

  /** The key of every visited row that generated is among the success keys. */
  lemma {:induction false} SuccessKeysHold(src: seq<Row>, log: seq<Visit>, j: nat)
    requires |log| <= |src| && j < |log| && log[j].outcome.Generated?
    ensures CompanyKey(src[j].company) in SuccessKeys(src, log)
    decreases |log|
  {
    var n := |log| - 1;
    if j < n {
      assert log[..n][j] == log[j];
      SuccessKeysHold(src, log[..n], j);
    }
  }

  /** Every success key belongs to a visited row that generated. */
  lemma {:induction false} SuccessKeyWitness(src: seq<Row>, log: seq<Visit>, k: string) returns (j: nat)
    requires |log| <= |src| && k in SuccessKeys(src, log)
    ensures j < |log| && log[j].outcome.Generated? && CompanyKey(src[j].company) == k
    decreases |log|
  {
    var n := |log| - 1;
    if log[n].outcome.Generated? && k == CompanyKey(src[n].company) {
      j := n;
    } else {
      j := SuccessKeyWitness(src, log[..n], k);
      assert log[..n][j] == log[j];
    }
  }

  /** No two visited rows with the same key both generated. */
  ghost predicate UniqueSuccesses(src: seq<Row>, log: seq<Visit>)
    requires |log| <= |src|
  {
    forall i, j :: 0 <= i < j < |log| && log[i].outcome.Generated? && log[j].outcome.Generated?
      ==> CompanyKey(src[i].company) != CompanyKey(src[j].company)
  }

  /** Every visited row ended in a terminal state, relative to `cache`. */
  ghost predicate AllTerminal(src: seq<Row>, rows: seq<Row>, log: seq<Visit>,
                              cache: map<string, string>, env: Env)
    requires |log| <= |src| == |rows|
  {
    forall j :: 0 <= j < |log| ==> Terminal(j, src[j], rows[j].body, log[j], cache, env)
  }

  /** The shape of the loop state: unvisited rows untouched, visited rows
      changed in `Email Body` only, and the stop, if any, at the next row. */
  ghost predicate Shape(src: seq<Row>, b: Batch, stop: StopFlag) {
    && |b.rows| == |src| && |b.log| <= |src|
    && (forall j :: |b.log| <= j < |src| ==> b.rows[j] == src[j])
    && (forall j :: 0 <= j < |b.log| ==> SameRecord(src[j], b.rows[j]))
    && (forall j :: 0 <= j < |b.log| && !Filled(src[j].body) ==> !stop(j))
    && (b.stoppedAt.Some? ==>
          && b.stoppedAt.value == |b.log| < |src|
          && !Filled(src[|b.log|].body) && stop(|b.log|))
  }

  /** The `Email Body` column holds text once a row has been visited, and
      the statistics failed at a visited row exactly when it was the first
      row and the sheet's column held no text. */
  ghost predicate ColumnState(src: seq<Row>, b: Batch) {
    && (|b.log| > 0 ==> Stats.HoldsText(b.rows))
    && (forall j :: 0 <= j < |b.log| ==>
          (b.log[j].outcome.StatsFailed? <==> j == 0 && !Stats.HoldsText(src)))
  }

  /** What holds of the loop state after every pass. */
  ghost predicate Inv(src: seq<Row>, b: Batch, stop: StopFlag, env: Env) {
    && Shape(src, b, stop)
    && ColumnState(src, b)
    && AllTerminal(src, b.rows, b.log, b.cache, env)
    && b.cache.Keys == SuccessKeys(src, b.log)
    && UniqueSuccesses(src, b.log)
  }

  /** A skipped row keeps the shape of the loop state. */
  lemma SkipKeepsShape(src: seq<Row>, b: Batch, stop: StopFlag)
    requires Shape(src, b, stop) && b.stoppedAt.None? && |b.log| < |src|
    requires Filled(b.rows[|b.log|].body)
    ensures Shape(src, b.(log := b.log + [Visit(Skipped, [])]), stop)
  {
    assert b.rows[|b.log|] == src[|b.log|];
  }

  /** A skipped row ends in the skip state, and earlier rows stay terminal. */
  lemma SkipKeepsTerminal(src: seq<Row>, b: Batch, env: Env)
    requires |b.log| < |src| == |b.rows| && b.rows[|b.log|] == src[|b.log|]
    requires Filled(src[|b.log|].body)
    requires AllTerminal(src, b.rows, b.log, b.cache, env)
    ensures AllTerminal(src, b.rows, b.log + [Visit(Skipped, [])], b.cache, env)
  {
    var i := |b.log|;
    var log' := b.log + [Visit(Skipped, [])];
    forall j | 0 <= j < |log'|
      ensures Terminal(j, src[j], b.rows[j].body, log'[j], b.cache, env)
    {
      if j < i {
        assert log'[j] == b.log[j];
      } else {
        assert log'[j] == Visit(Skipped, []);
      }
    }
  }

  /** A skipped row keeps the column state: the row holds a value, so the
      column holds text, and a skip is no failure. */
  lemma SkipKeepsColumn(src: seq<Row>, b: Batch, stop: StopFlag)
    requires Shape(src, b, stop) && ColumnState(src, b) && b.stoppedAt.None? && |b.log| < |src|
    requires Filled(b.rows[|b.log|].body)
    ensures ColumnState(src, b.(log := b.log + [Visit(Skipped, [])]))
  {
    var i := |b.log|;
    var log' := b.log + [Visit(Skipped, [])];
    assert b.rows[i].body.Some? && src[i].body.Some?;
    forall j | 0 <= j < |log'|
      ensures log'[j].outcome.StatsFailed? <==> j == 0 && !Stats.HoldsText(src)
    {
      if j < i {
        assert log'[j] == b.log[j];
      }
    }
  }

  /** A skipped row keeps the invariant. */
  lemma SkipKeepsInv(src: seq<Row>, b: Batch, stop: StopFlag, env: Env)
    requires Inv(src, b, stop, env) && b.stoppedAt.None? && |b.log| < |src|
    requires Filled(b.rows[|b.log|].body)
    ensures Inv(src, VisitRow(b, stop, env), stop, env)
  {
    var c := b.(log := b.log + [Visit(Skipped, [])]);
    assert VisitRow(b, stop, env) == c;
    assert b.rows[|b.log|] == src[|b.log|];
    SkipKeepsShape(src, b, stop);
    SkipKeepsColumn(src, b, stop);
    SkipKeepsTerminal(src, b, env);
    AppendSuccessKeys(src, b.log, Visit(Skipped, []));
    AppendKeepsUnique(src, b.log, Visit(Skipped, []));
  }

  /** Appending the visit of row `|log|` to the log, with the cache growing
      at most by that row's key, keeps every earlier row terminal. */
  lemma AppendKeepsTerminal(src: seq<Row>, rows: seq<Row>, log: seq<Visit>, cache: map<string, string>,
                            s: Step, env: Env)
    requires |log| < |src| == |rows| && rows[|log|] == src[|log|]
    requires AllTerminal(src, rows, log, cache, env)
    requires Terminal(|log|, src[|log|], s.body, s.visit, s.cache, env)
    requires Extends(cache, s.cache)
    ensures AllTerminal(src, rows[|log| := rows[|log|].(body := s.body)], log + [s.visit], s.cache, env)
  {
    var i := |log|;
    var rows' := rows[i := rows[i].(body := s.body)];
    var log' := log + [s.visit];
    forall j | 0 <= j < |log'|
      ensures Terminal(j, src[j], rows'[j].body, log'[j], s.cache, env)
    {
      if j < i {
        assert log'[j] == log[j] && rows'[j] == rows[j];
        TerminalKeepsUnderExtension(j, src[j], rows[j].body, log[j], cache, s.cache, env);
      } else {
        assert log'[j] == s.visit && rows'[j].body == s.body;
      }
    }
  }

  /** Appending a visit adds its row's key to the keys of rows that
      generated exactly when the visit generated. */
  lemma AppendSuccessKeys(src: seq<Row>, log: seq<Visit>, v: Visit)
    requires |log| < |src|
    ensures SuccessKeys(src, log + [v])
         == SuccessKeys(src, log) + (if v.outcome.Generated? then {CompanyKey(src[|log|].company)} else {})
  {
    assert (log + [v])[..|log|] == log;
  }

  /** Appending a visit keeps generated keys distinct when a generating
      visit's key was not among them. */
  lemma AppendKeepsUnique(src: seq<Row>, log: seq<Visit>, v: Visit)
    requires |log| < |src| && UniqueSuccesses(src, log)
    requires v.outcome.Generated? ==> CompanyKey(src[|log|].company) !in SuccessKeys(src, log)
    ensures UniqueSuccesses(src, log + [v])
  {
    var i := |log|;
    var log' := log + [v];
    forall x, y | 0 <= x < y < |log'| && log'[x].outcome.Generated? && log'[y].outcome.Generated?
      ensures CompanyKey(src[x].company) != CompanyKey(src[y].company)
    {
      assert log'[x] == log[x];
      if y == i {
        SuccessKeysHold(src, log, x);
      } else {
        assert log'[y] == log[y];
      }
    }
  }

  /** A processed row keeps the shape of the loop state. */
  lemma ProcessKeepsShape(src: seq<Row>, b: Batch, stop: StopFlag, s: Step)
    requires Shape(src, b, stop) && b.stoppedAt.None? && |b.log| < |src|
    requires !Filled(src[|b.log|].body) && !stop(|b.log|)
    ensures Shape(src, Batch(b.rows[|b.log| := src[|b.log|].(body := s.body)], b.log + [s.visit], s.cache, None), stop)
  {
    var i := |b.log|;
    var c := Batch(b.rows[i := src[i].(body := s.body)], b.log + [s.visit], s.cache, None);
    assert forall j :: 0 <= j < i ==> c.log[j] == b.log[j] && c.rows[j] == b.rows[j];
    assert c.rows[i] == src[i].(body := s.body);
  }

  /** Writing a value into the next row keeps the column state when the
      visit failed on the statistics exactly when the column held no text. */
  lemma WriteKeepsColumn(src: seq<Row>, b: Batch, stop: StopFlag, body: Option<string>, v: Visit, cache: map<string, string>)
    requires Shape(src, b, stop) && ColumnState(src, b) && |b.log| < |src|
    requires body.Some?
    requires v.outcome.StatsFailed? <==> !Stats.HoldsText(b.rows)
    ensures var i := |b.log|;
      ColumnState(src, Batch(b.rows[i := src[i].(body := body)], b.log + [v], cache, None))
  {
    var i := |b.log|;
    var c := Batch(b.rows[i := src[i].(body := body)], b.log + [v], cache, None);
    assert c.rows[i].body.Some?;
    if i == 0 {
      assert b.rows == src;
    }
    forall j | 0 <= j < |c.log|
      ensures c.log[j].outcome.StatsFailed? <==> j == 0 && !Stats.HoldsText(src)
    {
      if j < i {
        assert c.log[j] == b.log[j];
      }
    }
  }

  /** A processed row keeps the invariant: the cache only grows, by the key
      of a row that generated, which no earlier row had generated. */
  lemma ProcessKeepsInv(src: seq<Row>, b: Batch, stop: StopFlag, env: Env)
    requires Inv(src, b, stop, env) && b.stoppedAt.None? && |b.log| < |src|
    requires !Filled(b.rows[|b.log|].body) && !stop(|b.log|)
    ensures Inv(src, VisitRow(b, stop, env), stop, env)
  {
    var i := |b.log|;
    var row := src[i];
    assert b.rows[i] == row;
    var s := ProcessRow(b.rows, i, b.cache, env);
    var c := Batch(b.rows[i := row.(body := s.body)], b.log + [s.visit], s.cache, None);
    assert VisitRow(b, stop, env) == c;
    ProcessRowGrowsCache(b.rows, i, b.cache, env);
    ProcessRowIsTerminal(b.rows, i, b.cache, env);
    AppendKeepsTerminal(src, b.rows, b.log, b.cache, s, env);
    AppendSuccessKeys(src, b.log, s.visit);
    assert c.cache.Keys == SuccessKeys(src, c.log);
    AppendKeepsUnique(src, b.log, s.visit);
    ProcessKeepsShape(src, b, stop, s);
    WriteKeepsColumn(src, b, stop, s.body, s.visit, s.cache);
  }

  /** Every pass keeps the invariant. */
  lemma VisitKeepsInv(src: seq<Row>, b: Batch, stop: StopFlag, env: Env)
    requires Inv(src, b, stop, env) && b.stoppedAt.None? && |b.log| < |src|
    ensures Inv(src, VisitRow(b, stop, env), stop, env)
  {
    if Filled(b.rows[|b.log|].body) {
      SkipKeepsInv(src, b, stop, env);
    } else if stop(|b.log|) {
      StopKeepsInv(src, b, stop, env);
    } else {
      ProcessKeepsInv(src, b, stop, env);
    }
  }

  /** A stop keeps the invariant: only the stop marker changes. */
  lemma StopKeepsInv(src: seq<Row>, b: Batch, stop: StopFlag, env: Env)
    requires Inv(src, b, stop, env) && b.stoppedAt.None? && |b.log| < |src|
    requires !Filled(b.rows[|b.log|].body) && stop(|b.log|)
    ensures Inv(src, VisitRow(b, stop, env), stop, env)
  {
    assert VisitRow(b, stop, env) == b.(stoppedAt := Some(|b.log|));
    assert b.rows[|b.log|] == src[|b.log|];
  }

  /** The invariant holds before the first pass. */
  lemma StartInv(src: seq<Row>, stop: StopFlag, env: Env)
    ensures Inv(src, Start(src), stop, env)
  {
    assert SuccessKeys(src, []) == {};
    assert Shape(src, Start(src), stop);
  }

  /** One more pass keeps the invariant, stopped or not. */
  lemma PassKeepsInv(src: seq<Row>, n: nat, stop: StopFlag, env: Env)
    requires 0 < n <= |src| && Inv(src, RunPrefix(src, n - 1, stop, env), stop, env)
    ensures Inv(src, RunPrefix(src, n, stop, env), stop, env)
  {
    var b := RunPrefix(src, n - 1, stop, env);
    if b.stoppedAt.None? {
      VisitKeepsInv(src, b, stop, env);
    }
  }

  /** The invariant holds after every number of passes. */
  lemma {:induction false} RunPrefixInv(src: seq<Row>, n: nat, stop: StopFlag, env: Env)
    requires n <= |src|
    ensures Inv(src, RunPrefix(src, n, stop, env), stop, env)
    decreases n
  {
    if n == 0 {
      StartInv(src, stop, env);
    } else {
      RunPrefixInv(src, n - 1, stop, env);
      PassKeepsInv(src, n, stop, env);
    }
  }

  /** A run writes nothing but `Email Body` cells: the sheet keeps its
      length, its order and every other cell. */
  lemma RunKeepsRecords(src: seq<Row>, stop: StopFlag, env: Env)
    ensures |Run(src, stop, env).rows| == |src|
    ensures forall j :: 0 <= j < |src| ==> SameRecord(src[j], Run(src, stop, env).rows[j])
  {
    RunPrefixInv(src, |src|, stop, env);
  }

  /** Every row visited ends in one of the terminal states of a row, and
      rows are visited in index order from the first. */
  lemma RunRowsAreTerminal(src: seq<Row>, stop: StopFlag, env: Env)
    ensures var r := Run(src, stop, env);
      forall j :: 0 <= j < |r.log| ==> Terminal(j, src[j], r.rows[j].body, r.log[j], r.cache, env)
  {
    RunPrefixInv(src, |src|, stop, env);
  }

  /** A row whose `Email Body` is already longer than ten characters is
      skipped and left exactly as it was, whether or not a stop is
      requested. */
  lemma RunSkipsFilledRows(src: seq<Row>, stop: StopFlag, env: Env, j: nat)
    requires j < |src| && Filled(src[j].body)
    ensures Run(src, stop, env).rows[j] == src[j]
    ensures j < |Run(src, stop, env).log| ==> Run(src, stop, env).log[j].outcome == Skipped
  {
    RunPrefixInv(src, |src|, stop, env);
    var r := Run(src, stop, env);
    if j < |r.log| {
      assert Terminal(j, src[j], r.rows[j].body, r.log[j], r.cache, env);
    }
  }

  /** The loop stops at the first unfilled row that sees the stop flag; that
      row and every later row keep their original `Email Body`. With no such
      row the loop visits every row. */
  lemma RunStopsAtFirstRequest(src: seq<Row>, stop: StopFlag, env: Env)
    ensures var r := Run(src, stop, env);
      r.stoppedAt.None? <==> forall j :: 0 <= j < |src| && !Filled(src[j].body) ==> !stop(j)
    ensures var r := Run(src, stop, env);
      r.stoppedAt.None? ==> |r.log| == |src|
    ensures var r := Run(src, stop, env);
      r.stoppedAt.Some? ==>
        var k := r.stoppedAt.value;
        && k < |src| && |r.log| == k
        && !Filled(src[k].body) && stop(k)
        && (forall j :: 0 <= j < k && !Filled(src[j].body) ==> !stop(j))
        && (forall j :: k <= j < |src| ==> r.rows[j] == src[j])
  {
    RunPrefixInv(src, |src|, stop, env);
  }

  /** A stop requested at the first unfilled row `k` that sees it ends the
      run there, leaving rows `k` onwards untouched. */
  lemma RunStopsAt(src: seq<Row>, stop: StopFlag, env: Env, k: nat)
    requires k < |src| && !Filled(src[k].body) && stop(k)
    requires forall j :: 0 <= j < k && !Filled(src[j].body) ==> !stop(j)
    ensures Run(src, stop, env).stoppedAt == Some(k)
    ensures forall j :: k <= j < |src| ==> Run(src, stop, env).rows[j] == src[j]
  {
    RunStopsAtFirstRequest(src, stop, env);
  }

  /** The cache holds exactly the keys of rows that generated, each mapped
      to the body that row received; failures are never cached. */
  lemma RunCacheHoldsOnlySuccesses(src: seq<Row>, stop: StopFlag, env: Env)
    ensures var r := Run(src, stop, env);
      forall j :: 0 <= j < |r.log| && r.log[j].outcome.Generated? ==>
        && CompanyKey(src[j].company) in r.cache
        && r.rows[j].body == Some(r.cache[CompanyKey(src[j].company)])
    ensures var r := Run(src, stop, env);
      forall key :: key in r.cache ==>
        exists j :: 0 <= j < |r.log| && r.log[j].outcome.Generated? && CompanyKey(src[j].company) == key
  {
    RunPrefixInv(src, |src|, stop, env);
    var r := Run(src, stop, env);
    forall j | 0 <= j < |r.log| && r.log[j].outcome.Generated?
      ensures CompanyKey(src[j].company) in r.cache
      ensures r.rows[j].body == Some(r.cache[CompanyKey(src[j].company)])
    {
      assert Terminal(j, src[j], r.rows[j].body, r.log[j], r.cache, env);
    }
    forall key | key in r.cache
      ensures exists j :: 0 <= j < |r.log| && r.log[j].outcome.Generated? && CompanyKey(src[j].company) == key
    {
      var j := SuccessKeyWitness(src, r.log, key);
    }
  }

  /** Two rows with the same normalised company that both ended by
      generating or by a cache hit hold identical text. */
  lemma RunCachedTextsAgree(src: seq<Row>, stop: StopFlag, env: Env, i: nat, j: nat)
    requires var r := Run(src, stop, env);
      && i < |r.log| && j < |r.log|
      && (r.log[i].outcome.Generated? || r.log[i].outcome.CacheHit?)
      && (r.log[j].outcome.Generated? || r.log[j].outcome.CacheHit?)
      && CompanyKey(src[i].company) == CompanyKey(src[j].company)
    ensures Run(src, stop, env).rows[i].body == Run(src, stop, env).rows[j].body
  {
    RunPrefixInv(src, |src|, stop, env);
    var r := Run(src, stop, env);
    assert Terminal(i, src[i], r.rows[i].body, r.log[i], r.cache, env);
    assert Terminal(j, src[j], r.rows[j].body, r.log[j], r.cache, env);
  }

  /** At most one row per normalised company generates in a run. */
  lemma RunAtMostOneSuccessPerCompany(src: seq<Row>, stop: StopFlag, env: Env, i: nat, j: nat)
    requires var r := Run(src, stop, env);
      && i < |r.log| && j < |r.log|
      && r.log[i].outcome.Generated? && r.log[j].outcome.Generated?
      && CompanyKey(src[i].company) == CompanyKey(src[j].company)
    ensures i == j
  {
    RunPrefixInv(src, |src|, stop, env);
  }

  /** A subset of a finite set is no larger. */
  lemma {:induction false} SubsetCardinality(a: set<nat>, b: set<nat>)
    requires a <= b
    ensures |a| <= |b|
    decreases |b|
  {
    if a != {} {
      var x :| x in a;
      SubsetCardinality(a - {x}, b - {x});
    }
  }

  /** The summary taken after the run, which is not guarded by any
      `try`, raises exactly when no row was visited and the sheet's
      `Email Body` column held no text; otherwise every row that ended in
      an error is counted among its errors. */
  lemma RunErrorsAreCounted(src: seq<Row>, stop: StopFlag, env: Env)
    ensures var r := Run(src, stop, env);
      Stats.CalculateStats(Some(Stats.Frame(r.rows, true))).Success? <==> |r.log| > 0 || Stats.HoldsText(src)
    ensures var r := Run(src, stop, env);
      var stats := Stats.CalculateStats(Some(Stats.Frame(r.rows, true)));
      stats.Success? ==>
        |set j: nat | j < |r.log| && IsError(r.log[j].outcome)| <= stats.value.errors
    ensures var r := Run(src, stop, env);
      forall j :: 0 <= j < |r.log| && IsError(r.log[j].outcome) ==> j in Stats.ErrorRows(r.rows)
  {
    RunPrefixInv(src, |src|, stop, env);
    var r := Run(src, stop, env);
    if |r.log| == 0 {
      assert r.rows == src;
    }
    var failed := set j: nat | j < |r.log| && IsError(r.log[j].outcome);
    forall j | j in failed
      ensures j in Stats.ErrorRows(r.rows)
    {
      ErrorBodiesCarryMarker(j, src[j], r.rows[j].body, r.log[j], r.cache, env);
    }
    SubsetCardinality(failed, Stats.ErrorRows(r.rows));
  }

  /** The progress statistics fail at most once in a run: at the first row,
      exactly when the sheet's `Email Body` column holds no text, and then
      that row gets the accessor error unless the stop is already seen. */
  lemma RunStatsFailOnlyOnEmptyColumn(src: seq<Row>, stop: StopFlag, env: Env)
    ensures var r := Run(src, stop, env);
      forall j :: 0 <= j < |r.log| ==>
        (r.log[j].outcome.StatsFailed? <==> j == 0 && !Stats.HoldsText(src))
    ensures var r := Run(src, stop, env);
      !Stats.HoldsText(src) && !stop(0) ==>
        && |r.log| > 0
        && r.log[0] == Visit(StatsFailed(Stats.StrAccessorError), [])
        && r.rows[0].body == Some(ErrorPrefix + Stats.StrAccessorError)
  {
    RunPrefixInv(src, |src|, stop, env);
    var r := Run(src, stop, env);
    if !Stats.HoldsText(src) && !stop(0) {
      assert |src| > 0 && src[0].body.None?;
      RunStopsAtFirstRequest(src, stop, env);
      assert r.stoppedAt != Some(0);
      assert Terminal(0, src[0], r.rows[0].body, r.log[0], r.cache, env);
    }
  }

  /** A pass after the stop changes nothing. */
  lemma StoppedStep(src: seq<Row>, n: nat, stop: StopFlag, env: Env)
    requires 0 < n <= |src| && RunPrefix(src, n - 1, stop, env).stoppedAt.Some?
    ensures RunPrefix(src, n, stop, env) == RunPrefix(src, n - 1, stop, env)
  {
  }

  /** Once the loop has stopped, further passes change nothing. */
  lemma {:induction false} StoppedStaysStopped(src: seq<Row>, i: nat, n: nat, stop: StopFlag, env: Env)
    requires i <= n <= |src|
    requires RunPrefix(src, i, stop, env).stoppedAt.Some?
    ensures RunPrefix(src, n, stop, env) == RunPrefix(src, i, stop, env)
    decreases n - i
  {
    if n > i {
      StoppedStep(src, i + 1, stop, env);
      StoppedStaysStopped(src, i + 1, n, stop, env);
    }
  }

  /** One more pass over a filled row appends a skip to the log. */
  lemma PassSkips(src: seq<Row>, i: nat, stop: StopFlag, env: Env)
    requires i < |src|
    requires var b := RunPrefix(src, i, stop, env); b.stoppedAt.None? && Filled(b.rows[i].body)
    ensures var b := RunPrefix(src, i, stop, env);
      RunPrefix(src, i + 1, stop, env) == b.(log := b.log + [Visit(Skipped, [])])
  {
  }

  /** One more pass over an unfilled row that sees the stop ends the run. */
  lemma PassStops(src: seq<Row>, i: nat, stop: StopFlag, env: Env)
    requires i < |src|
    requires var b := RunPrefix(src, i, stop, env); b.stoppedAt.None? && !Filled(b.rows[i].body) && stop(i)
    ensures var b := RunPrefix(src, i, stop, env);
      RunPrefix(src, |src|, stop, env) == b.(stoppedAt := Some(i))
  {
    StoppedStaysStopped(src, i + 1, |src|, stop, env);
  }

  /** One more pass over any other row processes it. */
  lemma PassProcesses(src: seq<Row>, i: nat, stop: StopFlag, env: Env)
    requires i < |src|
    requires var b := RunPrefix(src, i, stop, env); b.stoppedAt.None? && !Filled(b.rows[i].body) && !stop(i)
    ensures var b := RunPrefix(src, i, stop, env);
      var s := ProcessRow(b.rows, i, b.cache, env);
      RunPrefix(src, i + 1, stop, env) == Batch(b.rows[i := b.rows[i].(body := s.body)], b.log + [s.visit], s.cache, None)
  {
  }

  /** The loop as written: `continue` past filled rows, `break` on a stop,
      otherwise process the row and write its `Email Body` cell. It computes
      exactly the run defined above. */
  method RunBatch(src: seq<Row>, stop: StopFlag, env: Env)
    returns (rows: seq<Row>, log: seq<Visit>, cache: map<string, string>, stoppedAt: Option<nat>)
    ensures Batch(rows, log, cache, stoppedAt) == Run(src, stop, env)
  {
    rows, log, cache, stoppedAt := src, [], map[], None;
    var i := 0;
    while i < |src|
      invariant 0 <= i <= |src|
      invariant Batch(rows, log, cache, None) == RunPrefix(src, i, stop, env)
      invariant stoppedAt.None?
    {
      if Filled(rows[i].body) {
        PassSkips(src, i, stop, env);
        log := log + [Visit(Skipped, [])];
        i := i + 1;
        continue;
      }
      if stop(i) {
        PassStops(src, i, stop, env);
        stoppedAt := Some(i);
        return;
      }
      PassProcesses(src, i, stop, env);
      var s := ProcessRow(rows, i, cache, env);
      rows := rows[i := rows[i].(body := s.body)];
      log := log + [s.visit];
      cache := s.cache;
      i := i + 1;
    }
  }
}

=== FILE: industry.dfy ===
/** The "industry reference" of a prompt: the past clients the generated
    email may name, chosen by the first industry key that occurs in the
    row's lower-cased industry text. */
module Industry {
  import opened Wrappers
  import opened Text

  /** A client-reference table: industry keys with their past clients, in
      the order the lookup scans them (a Python dict iterates in insertion
      order). The table is built once before the loop. */
  type Table = seq<(string, seq<string>)>

  /** The table the application builds. */
  const ClientReferences: Table := [
    ("automation", ["Unbox Robotics", "Yantrana Systems", "Uno Minda", "Plexware Automation"]),
    ("aerospace", ["Sagar Defence", "DRDO", "Ikran Aerospace", "EtherealX", "Manstu Aerospace", "TMPL"]),
    ("industrial", ["Proarc", "Kirloskar Pneumatics", "Yazaki", "V-Tech Engineering", "Zimmer Group", "Warade Pactech"]),
    ("automobile", ["Octarange Technology", "Hyrovert", "Tritium Motors", "Ground Mobile", "Navnit Motors", "Clean Electric"])
  ]

  /** The phrase used when no clients are found. */
  const GenericReference: string := "top-tier clients"

  /** The separator of `', '.join`. */
  const ListSeparator: string := ", "

  /** The key of entry `j` occurs in `industry`. */
  predicate KeyMatches(table: Table, industry: string, j: int)
    requires 0 <= j < |table|
  {
    Contains(industry, table[j].0)
  }

  /** Index of the first entry at or after `start` whose key is a substring
      of `industry`: the generator expression `next(key for key in ... if
      key in industry)`, with `None` as its default. */
  function FirstMatchFrom(table: Table, industry: string, start: nat): (r: Option<nat>)
    requires start <= |table|
    ensures r.Some? ==> start <= r.value < |table| && KeyMatches(table, industry, r.value)
    ensures r.Some? ==> forall k :: start <= k < r.value ==> !KeyMatches(table, industry, k)
    ensures r.None? ==> forall k :: start <= k < |table| ==> !KeyMatches(table, industry, k)
    decreases |table| - start
  {
    if start == |table| then None
    else if KeyMatches(table, industry, start) then Some(start)
    else FirstMatchFrom(table, industry, start + 1)
  }

  /** The past clients listed for the first matching key, or no clients. */
  function ClientsFor(table: Table, industry: string): seq<string> {
    match FirstMatchFrom(table, industry, 0)
    case Some(j) => table[j].1
    case None => []
  }

  /** The reference text placed into the prompt: the matching clients
      joined by ", ", or the generic phrase when there are none. */
  function ReferenceText(table: Table, industry: string): string {
    var clients := ClientsFor(table, industry);
    if |clients| > 0 then Join(clients, ListSeparator) else GenericReference
  }

  /** Every entry lists at least one client, and no entry's first client is
      a prefix of the generic phrase, so a list never reads as the phrase. */
  predicate Listed(table: Table) {
    forall j :: 0 <= j < |table| ==>
      |table[j].1| > 0 && !StartsWith(GenericReference, table[j].1[0])
  }

  /** The application's table is listed. */
  lemma ClientReferencesListed()
    ensures Listed(ClientReferences)
  {
    forall j | 0 <= j < |ClientReferences|
      ensures |ClientReferences[j].1| > 0 && !StartsWith(GenericReference, ClientReferences[j].1[0])
    {
      var first := ClientReferences[j].1[0];
      assert first[0] == 'U' || first[0] == 'S' || first[0] == 'P' || first[0] == 'O';
      assert GenericReference[0] == 't';
    }
  }

  /** The reference text is the joined client list of the first key, in
      table order, that occurs in the industry text. */
  lemma ReferenceTextIsFirstMatch(table: Table, industry: string, j: int)
    requires Listed(table)
    requires 0 <= j < |table|
    requires KeyMatches(table, industry, j)
    requires forall k :: 0 <= k < j ==> !KeyMatches(table, industry, k)
    ensures ReferenceText(table, industry) == Join(table[j].1, ListSeparator)
  {
    assert FirstMatchFrom(table, industry, 0) == Some(j);
  }

  /** The generic phrase is used exactly when no key of the table occurs
      in the industry text. */
  lemma GenericIffNoMatch(table: Table, industry: string)
    requires Listed(table)
    ensures ReferenceText(table, industry) == GenericReference
        <==> forall k :: 0 <= k < |table| ==> !KeyMatches(table, industry, k)
  {
    var m := FirstMatchFrom(table, industry, 0);
    if m.Some? {
      var clients := table[m.value].1;
      assert StartsWith(ReferenceText(table, industry), clients[0]);
      assert !StartsWith(GenericReference, clients[0]);
    }
  }
}

=== FILE: processor.dfy ===
/** What the loop body does with one row that is not yet filled and is
    reached while no stop is requested: the progress statistics, the cache
    check, the URL check, the website fetch, prompt assembly and
    generation, and the error text that every failure leaves in the row.
    The scraper and the generator are parameters, so nothing here performs
    I/O. */
module Processor {
  import opened Wrappers
  import opened Text
  import opened Sheet
  import Industry
  import Stats

  /** The scheme prefix a website must start with to be fetched. */
  const HttpPrefix: string := "http"

  /** Fixed error texts and the prefix put in front of a generator failure. */
  const InvalidUrlError: string := "ERROR: Invalid website URL"
  const FetchError: string := "ERROR: Could not fetch website"
  const ErrorPrefix: string := "ERROR: "

  /** At most this many characters of a page's text reach the prompt. */
  const MaxSiteText: nat := 3500

  /** The parts the prompt template is filled with; the template wording
      around them is fixed. */
  datatype Prompt = Prompt(
    profile: string,     // the company profile document
    company: string,     // the row's company name, as written in the sheet
    siteText: string,    // the fetched website text
    examples: string,    // the rendered few-shot examples
    references: string)  // the industry reference text

  /** The external collaborators of one run. `scrape` is the page download
      and text extraction (`None` on a request failure); `generate` is the
      model call (`Failure` carries the exception text). Both are network
      calls whose answer may change from one call to the next, so each is
      also given the index of the row it is made for: a row makes at most
      one call of each, so the index tells every call of a run apart.
      `table`, `profile` and `examples` are set up once before the loop
      (the application uses `Industry.ClientReferences` as its table). */
  datatype Env = Env(
    scrape: (nat, string) -> Option<string>,
    generate: (nat, Prompt) -> Result<string, string>,
    table: Industry.Table,
    profile: string,
    examples: string)

  /** The calls a row makes, in order: a website fetch, a generation
      request, and the pause between rows. */
  datatype Call = Fetch(url: string) | Generate(prompt: Prompt) | Pause

  /** How the visit of a row ended. */
  datatype Outcome =
    | Skipped                      // already filled, left alone
    | StatsFailed(message: string) // the progress statistics raised first
    | CacheHit                     // copied a body generated earlier in the run
    | InvalidUrl                   // website does not start with the scheme prefix
    | FetchFailed                  // the page could not be fetched or had no text
    | GenerationFailed(message: string)  // the generator raised
    | Generated                    // a new body was generated

  /** The record the loop keeps of one visited row. */
  datatype Visit = Visit(outcome: Outcome, calls: seq<Call>)

  /** The result of processing one row: the new `Email Body` cell, the cache
      after the row, and the record of the visit. */
  datatype Step = Step(body: Option<string>, cache: map<string, string>, visit: Visit)

  /** The outcomes that leave an error text in the row. */
  predicate IsError(o: Outcome) {
    o.StatsFailed? || o.InvalidUrl? || o.FetchFailed? || o.GenerationFailed?
  }

  /** The outcomes reached through the `except` branch: something inside
      the `try` raised. */
  predicate Raised(o: Outcome) {
    o.StatsFailed? || o.GenerationFailed?
  }

  /** `get_website_text`, given what the download returned: the page text
      cut to its first `MaxSiteText` characters, or nothing when the request
      failed. The cut is the longest prefix of at most `MaxSiteText`
      characters. */
  function FetchSiteText(page: Option<string>): (r: Option<string>)
    ensures r.None? <==> page.None?
    ensures r.Some? ==> StartsWith(page.value, r.value)
    ensures r.Some? ==> |r.value| == if |page.value| <= MaxSiteText then |page.value| else MaxSiteText
  {
    match page
    case None => None
    case Some(text) => Some(if |text| <= MaxSiteText then text else text[..MaxSiteText])
  }

  /** The site text row `i` sees for `url`. */
  function SiteText(env: Env, i: nat, url: string): Option<string> {
    FetchSiteText(env.scrape(i, url))
  }

  /** The prompt for a row whose website yielded `siteText`. The industry is
      lower-cased before the reference lookup. */
  function PromptFor(row: Row, siteText: string, env: Env): Prompt {
    Prompt(env.profile, row.company, siteText, env.examples,
           Industry.ReferenceText(env.table, Lower(row.industry)))
  }

  /** What a visit ending in `v` leaves behind for row `i`: the conditions
      that led there, the `Email Body` it wrote and the calls it made, with
      `cache` any cache that contains the one the row left. */
  ghost predicate Terminal(i: nat, row: Row, body: Option<string>, v: Visit, cache: map<string, string>, env: Env) {
    var key := CompanyKey(row.company);
    var site := SiteText(env, i, row.website);
    match v.outcome
    case Skipped =>
      && Filled(row.body) && body == row.body && v.calls == []
    case StatsFailed(message) =>
      && !Filled(row.body)
      && message == Stats.StrAccessorError
      && body == Some(ErrorPrefix + message)
      && v.calls == []
    case CacheHit =>
      && !Filled(row.body)
      && key in cache && body == Some(cache[key])
      && v.calls == [Pause]
    case InvalidUrl =>
      && !Filled(row.body)
      && !StartsWith(row.website, HttpPrefix)
      && body == Some(InvalidUrlError)
      && v.calls == [Pause]
    case FetchFailed =>
      && !Filled(row.body)
      && StartsWith(row.website, HttpPrefix)
      && (site.None? || site.value == "")
      && body == Some(FetchError)
      && v.calls == [Fetch(row.website), Pause]
    case GenerationFailed(message) =>
      && !Filled(row.body)
      && StartsWith(row.website, HttpPrefix)
      && site.Some? && site.value != ""
      && env.generate(i, PromptFor(row, site.value, env)) == Failure(message)
      && body == Some(ErrorPrefix + message)
      && v.calls == [Fetch(row.website), Generate(PromptFor(row, site.value, env))]
    case Generated =>
      && !Filled(row.body)
      && StartsWith(row.website, HttpPrefix)
      && site.Some? && site.value != ""
      && env.generate(i, PromptFor(row, site.value, env)).Success?
      && body == Some(Trim(env.generate(i, PromptFor(row, site.value, env)).value))
      && key in cache && body == Some(cache[key])
      && v.calls == [Fetch(row.website), Generate(PromptFor(row, site.value, env)), Pause]
  }

  /** `b` holds every entry of `a` unchanged. */
  ghost predicate Extends(a: map<string, string>, b: map<string, string>) {
    forall k :: k in a ==> k in b && b[k] == a[k]
  }

  /** Growing the cache keeps every terminal state valid. */
  lemma TerminalKeepsUnderExtension(i: nat, row: Row, body: Option<string>, v: Visit,
                                    a: map<string, string>, b: map<string, string>, env: Env)
    requires Terminal(i, row, body, v, a, env) && Extends(a, b)
    ensures Terminal(i, row, body, v, b, env)
  {
  }

  /** The body of the loop for row `i` of `sheet`, unfilled and reached
      with no stop requested; `sheet` is the frame as written so far. The
      progress statistics of the whole frame come first, and their failure
      is the row's error. Then a cache hit copies the cached body and calls
      nothing but the pause; else a website without the scheme prefix is an
      error without a fetch; else an empty fetch is an error; else the
      trimmed reply is stored and cached, and a generator failure becomes
      `"ERROR: " + message`. Only a generated body enters the cache, under a
      key that was not there before, and every processed row is written. */
  function ProcessRow(sheet: seq<Row>, i: nat, cache: map<string, string>, env: Env): (s: Step)
    requires i < |sheet| && !Filled(sheet[i].body)
    ensures s.visit.outcome.StatsFailed? <==> !Stats.HoldsText(sheet)
    ensures s.visit.outcome.CacheHit? <==> Stats.HoldsText(sheet) && CompanyKey(sheet[i].company) in cache
    ensures s.visit.outcome.Generated? ==>
      && CompanyKey(sheet[i].company) !in cache
      && s.body.Some?
      && s.cache == cache[CompanyKey(sheet[i].company) := s.body.value]
    ensures !s.visit.outcome.Generated? ==> s.cache == cache
    ensures s.body.Some? && !s.visit.outcome.Skipped?
  {
    var row := sheet[i];
    var key := CompanyKey(row.company);
    match Stats.CalculateStats(Some(Stats.Frame(sheet, true)))
    case Failure(message) =>
      Step(Some(ErrorPrefix + message), cache, Visit(StatsFailed(message), []))
    case Success(_) =>
      if key in cache then
        Step(Some(cache[key]), cache, Visit(CacheHit, [Pause]))
      else if !StartsWith(row.website, HttpPrefix) then
        Step(Some(InvalidUrlError), cache, Visit(InvalidUrl, [Pause]))
      else
        var site := SiteText(env, i, row.website);
        if site.None? || site.value == "" then
          Step(Some(FetchError), cache, Visit(FetchFailed, [Fetch(row.website), Pause]))
        else
          var prompt := PromptFor(row, site.value, env);
          match env.generate(i, prompt)
          case Failure(message) =>
            Step(Some(ErrorPrefix + message), cache,
                 Visit(GenerationFailed(message), [Fetch(row.website), Generate(prompt)]))
          case Success(reply) =>
            var text := Trim(reply);
            Step(Some(text), cache[key := text],
                 Visit(Generated, [Fetch(row.website), Generate(prompt), Pause]))
  }

  /** Every processed row ends in the terminal state its outcome names. */
  lemma ProcessRowIsTerminal(sheet: seq<Row>, i: nat, cache: map<string, string>, env: Env)
    requires i < |sheet| && !Filled(sheet[i].body)
    ensures var s := ProcessRow(sheet, i, cache, env);
      Terminal(i, sheet[i], s.body, s.visit, s.cache, env)
  {
  }

  /** The terminal states pin the step down: any step that ends a row in
      the terminal state its outcome names, failing on the statistics
      exactly when the frame holds no text, with a cache hit exactly when
      the key is cached otherwise, and the cache grown only by a generated
      body, is the step `ProcessRow` takes. */
  lemma TerminalDeterminesStep(sheet: seq<Row>, i: nat, cache: map<string, string>, env: Env, s: Step)
    requires i < |sheet| && !Filled(sheet[i].body)
    requires Terminal(i, sheet[i], s.body, s.visit, s.cache, env)
    requires s.visit.outcome.StatsFailed? <==> !Stats.HoldsText(sheet)
    requires s.visit.outcome.CacheHit? <==> Stats.HoldsText(sheet) && CompanyKey(sheet[i].company) in cache
    requires s.visit.outcome.Generated? ==>
      s.body.Some? && s.cache == cache[CompanyKey(sheet[i].company) := s.body.value]
    requires !s.visit.outcome.Generated? ==> s.cache == cache
    ensures s == ProcessRow(sheet, i, cache, env)
  {
    var row := sheet[i];
    var key := CompanyKey(row.company);
    var site := SiteText(env, i, row.website);
    if !Stats.HoldsText(sheet) {
      assert s.visit.outcome.StatsFailed?;
    } else if key in cache {
      assert s.visit.outcome.CacheHit?;
    } else if !StartsWith(row.website, HttpPrefix) {
      assert s.visit.outcome.InvalidUrl?;
    } else if site.None? || site.value == "" {
      assert s.visit.outcome.FetchFailed?;
    } else {
      var prompt := PromptFor(row, site.value, env);
      assert s.visit.outcome.GenerationFailed? || s.visit.outcome.Generated?;
      if env.generate(i, prompt).Failure? {
        assert s.visit.outcome == GenerationFailed(env.generate(i, prompt).error);
      } else {
        assert s.visit.outcome.Generated?;
      }
    }
  }

  /** A frame whose `Email Body` column holds no text fails the row on the
      statistics, before the cache, the website or the generator is
      consulted, and without the pause. */
  lemma ProcessRowStatsFails(sheet: seq<Row>, i: nat, cache: map<string, string>, env: Env)
    requires i < |sheet| && !Filled(sheet[i].body) && !Stats.HoldsText(sheet)
    ensures ProcessRow(sheet, i, cache, env)
         == Step(Some(ErrorPrefix + Stats.StrAccessorError), cache, Visit(StatsFailed(Stats.StrAccessorError), []))
  {
  }

  /** An unseen company whose website yields text and whose generation
      succeeds gets the trimmed reply, cached under its key. */
  lemma ProcessRowGenerates(sheet: seq<Row>, i: nat, cache: map<string, string>, env: Env, text: string, reply: string)
    requires i < |sheet| && !Filled(sheet[i].body) && Stats.HoldsText(sheet)
    requires CompanyKey(sheet[i].company) !in cache
    requires StartsWith(sheet[i].website, HttpPrefix)
    requires SiteText(env, i, sheet[i].website) == Some(text) && text != ""
    requires env.generate(i, PromptFor(sheet[i], text, env)) == Success(reply)
    ensures ProcessRow(sheet, i, cache, env)
         == Step(Some(Trim(reply)), cache[CompanyKey(sheet[i].company) := Trim(reply)],
                 Visit(Generated, [Fetch(sheet[i].website), Generate(PromptFor(sheet[i], text, env)), Pause]))
  {
  }

  /** An unseen company whose website yields text and whose generation
      raises gets the error text, and nothing is cached. */
  lemma ProcessRowRaises(sheet: seq<Row>, i: nat, cache: map<string, string>, env: Env, text: string, message: string)
    requires i < |sheet| && !Filled(sheet[i].body) && Stats.HoldsText(sheet)
    requires CompanyKey(sheet[i].company) !in cache
    requires StartsWith(sheet[i].website, HttpPrefix)
    requires SiteText(env, i, sheet[i].website) == Some(text) && text != ""
    requires env.generate(i, PromptFor(sheet[i], text, env)) == Failure(message)
    ensures ProcessRow(sheet, i, cache, env)
         == Step(Some(ErrorPrefix + message), cache,
                 Visit(GenerationFailed(message), [Fetch(sheet[i].website), Generate(PromptFor(sheet[i], text, env))]))
  {
  }

  /** Processing a row only ever adds its own key to the cache, and only
      when it generated; every earlier entry stays as it was. */
  lemma ProcessRowGrowsCache(sheet: seq<Row>, i: nat, cache: map<string, string>, env: Env)
    requires i < |sheet| && !Filled(sheet[i].body)
    ensures var s := ProcessRow(sheet, i, cache, env);
      && Extends(cache, s.cache)
      && s.cache.Keys == cache.Keys + (if s.visit.outcome.Generated? then {CompanyKey(sheet[i].company)} else {})
  {
    var s := ProcessRow(sheet, i, cache, env);
    if s.visit.outcome.Generated? {
      assert s.cache == cache[CompanyKey(sheet[i].company) := s.body.value];
    } else {
      assert s.cache == cache;
    }
  }

  /** Every error outcome leaves a body that starts with "ERROR:". */
  lemma ErrorBodiesCarryMarker(i: nat, row: Row, body: Option<string>, v: Visit,
                               cache: map<string, string>, env: Env)
    requires Terminal(i, row, body, v, cache, env) && IsError(v.outcome)
    ensures body.Some? && StartsWith(body.value, "ERROR:")
  {
    match v.outcome
    case StatsFailed(message) =>
      ErrorTextsCarryMarker(message);
    case InvalidUrl =>
      ErrorTextsCarryMarker("");
    case FetchFailed =>
      ErrorTextsCarryMarker("");
    case GenerationFailed(message) =>
      ErrorTextsCarryMarker(message);
  }

  /** The three error texts start with "ERROR:". */
  lemma ErrorTextsCarryMarker(message: string)
    ensures StartsWith(InvalidUrlError, "ERROR:") && StartsWith(FetchError, "ERROR:")
    ensures StartsWith(ErrorPrefix + message, "ERROR:")
  {
    assert InvalidUrlError[..6] == "ERROR:";
    assert FetchError[..6] == "ERROR:";
    assert (ErrorPrefix + message)[..6] == ErrorPrefix[..6] == "ERROR:";
  }

  /** An error text counts as already written, so a later run over the
      same sheet skips the row, unless it came from a generator message of
      at most three characters. */
  lemma ErrorTextFilledIff(message: string)
    ensures Filled(Some(InvalidUrlError)) && Filled(Some(FetchError))
    ensures Filled(Some(ErrorPrefix + Stats.StrAccessorError))
    ensures Filled(Some(ErrorPrefix + message)) <==> |message| > 3
  {
    assert |InvalidUrlError| == 26 && |FetchError| == 30 && |ErrorPrefix| == 7;
    assert |Stats.StrAccessorError| == 46;
  }

  /** The body of a row that ended in an error counts as already written,
      except after a generator message of at most three characters. */
  lemma RecordedErrorsAreFilled(i: nat, row: Row, body: Option<string>, v: Visit,
                                cache: map<string, string>, env: Env)
    requires Terminal(i, row, body, v, cache, env) && IsError(v.outcome)
    ensures v.outcome.GenerationFailed? ==> (Filled(body) <==> |v.outcome.message| > 3)
    ensures !v.outcome.GenerationFailed? ==> Filled(body)
  {
    if v.outcome.GenerationFailed? {
      ErrorTextFilledIff(v.outcome.message);
    } else {
      ErrorTextFilledIff("");
    }
  }

  /** The pause follows every processed row except one where something
      raised, since the `except` branch skips the rest of the loop body. */
  lemma PauseUnlessRaised(i: nat, row: Row, body: Option<string>, v: Visit,
                          cache: map<string, string>, env: Env)
    requires Terminal(i, row, body, v, cache, env) && !v.outcome.Skipped?
    ensures Pause in v.calls <==> !Raised(v.outcome)
  {
    if v.outcome.StatsFailed? {
      assert v.calls == [];
    } else if v.outcome.GenerationFailed? {
      assert v.calls[0] != Pause && v.calls[1] != Pause;
    } else {
      assert v.calls[|v.calls| - 1] == Pause;
    }
  }

  /** A prompt only ever carries non-empty site text of bounded length, the
      row's own company name and the reference text of its industry. */
  lemma PromptsAreBounded(i: nat, row: Row, body: Option<string>, v: Visit,
                          cache: map<string, string>, env: Env, p: Prompt)
    requires Terminal(i, row, body, v, cache, env) && Generate(p) in v.calls
    ensures 0 < |p.siteText| <= MaxSiteText
    ensures p.company == row.company && p.profile == env.profile && p.examples == env.examples
    ensures p.references == Industry.ReferenceText(env.table, Lower(row.industry))
  {
    var site := SiteText(env, i, row.website);
    assert v.outcome.GenerationFailed? || v.outcome.Generated?;
    assert p == PromptFor(row, site.value, env);
  }

  /** Only a website starting with the scheme prefix is ever fetched, and
      only the row's own website. */
  lemma FetchOnlyHttp(i: nat, row: Row, body: Option<string>, v: Visit,
                      cache: map<string, string>, env: Env, url: string)
    requires Terminal(i, row, body, v, cache, env) && Fetch(url) in v.calls
    ensures url == row.website && StartsWith(url, HttpPrefix)
  {
    var site := SiteText(env, i, row.website);
    assert v.outcome.FetchFailed? || v.outcome.GenerationFailed? || v.outcome.Generated?;
    if v.outcome.FetchFailed? {
      assert v.calls == [Fetch(row.website), Pause];
    } else if v.outcome.GenerationFailed? {
      assert v.calls == [Fetch(row.website), Generate(PromptFor(row, site.value, env))];
    } else {
      assert v.calls == [Fetch(row.website), Generate(PromptFor(row, site.value, env)), Pause];
    }
  }
}

=== FILE: scenarios.dfy ===
/** Worked runs on small sheets: the cases the loop is built for, one run
    showing that a failed generation is not remembered, and one showing
    what an `Email Body` column without any text does to the first row. */
module Scenarios {
  import opened Wrappers
  import opened Text
  import opened Sheet
  import opened Processor
  import opened BatchRun
  import Industry
  import Stats

  /** The stop flag of a run nobody interrupts. */
  function NeverStop(i: nat): bool { false }

  /** The cell of a sheet uploaded without an `Email Body` column, which
      the application adds filled with empty text. */
  const NewCell: Option<string> := Some("")

  /** An environment whose scraper answers every website with the same
      page text and whose generator always returns `reply`. */
  function FixedEnv(page: Option<string>, reply: Result<string, string>): Env {
    Env((i, u) => page, (i, p) => reply, Industry.ClientReferences, "profile", "examples")
  }

  /** A run over one unfilled row with no stop processes it. */
  lemma RunOneRow(src: seq<Row>, stop: StopFlag, env: Env)
    requires |src| == 1 && !Filled(src[0].body) && !stop(0)
    ensures var s := ProcessRow(src, 0, map[], env);
      Run(src, stop, env) == Batch([src[0].(body := s.body)], [s.visit], s.cache, None)
  {
    var b0 := RunPrefix(src, 0, stop, env);
    assert b0 == Start(src);
    assert RunPrefix(src, 1, stop, env) == VisitRow(b0, stop, env);
  }

  /** A website with the `ftp` scheme is an invalid URL, and nothing is
      fetched for it. */
  lemma FtpWebsiteIsRejected(env: Env)
    ensures var r := Run([Row("Acme", "ftp://acme.com", "automation", NewCell)], NeverStop, env);
      && r.rows[0].body == Some("ERROR: Invalid website URL")
      && r.log[0].calls == [Pause]
  {
    var src := [Row("Acme", "ftp://acme.com", "automation", NewCell)];
    RunOneRow(src, NeverStop, env);
    assert src[0].body.Some? && Stats.HoldsText(src);
    assert !StartsWith(src[0].website, HttpPrefix) by {
      assert src[0].website[..4] != HttpPrefix by {
        assert src[0].website[..4][0] == 'f';
      }
    }
  }

  /** A website the scraper cannot reach is recorded as a fetch failure. */
  lemma UnreachableWebsiteFails(sheet: seq<Row>, i: nat, cache: map<string, string>, reply: Result<string, string>)
    requires i < |sheet| && !Filled(sheet[i].body) && Stats.HoldsText(sheet)
    requires CompanyKey(sheet[i].company) !in cache
    requires StartsWith(sheet[i].website, HttpPrefix)
    ensures var s := ProcessRow(sheet, i, cache, FixedEnv(None, reply));
      s.body == Some(FetchError) && s.visit.calls == [Fetch(sheet[i].website), Pause]
  {
    assert SiteText(FixedEnv(None, reply), i, sheet[i].website).None?;
  }

  /** The same, end to end on a one-row sheet whose `Email Body` cell
      holds a value. */
  lemma DeadWebsiteIsRecorded(row: Row, reply: Result<string, string>)
    requires !Filled(row.body) && row.body.Some? && StartsWith(row.website, HttpPrefix)
    ensures var r := Run([row], NeverStop, FixedEnv(None, reply));
      && r.rows[0].body == Some(FetchError)
      && r.log[0].calls == [Fetch(row.website), Pause]
  {
    RunOneRow([row], NeverStop, FixedEnv(None, reply));
    assert [row][0].body.Some?;
    UnreachableWebsiteFails([row], 0, map[], reply);
  }

  /** The padded spelling is the plain one between two spaces. */
  lemma AcmeSpacedIsPadded()
    ensures " acme corp " == [' '] + "acme corp" + [' ']
  {
  }

  /** Both spellings lower-case to "acme corp". */
  lemma AcmeLowered()
    ensures Lower("Acme Corp") == "acme corp"
    ensures Lower("acme corp") == "acme corp"
  {
    assert LowerChar('A') == 'a' && LowerChar('C') == 'c';
  }

  /** The spaces around the lower-cased spelling do not change its key. */
  lemma AcmePaddingIgnored()
    ensures CompanyKey([' '] + "acme corp" + [' ']) == CompanyKey("acme corp")
  {
    assert AllSpace([' ']);
    CompanyKeyIgnoresPaddingAndCase([' '], "acme corp", [' ']);
  }

  /** "Acme Corp" and " acme corp " share one key. */
  lemma AcmeSpellingsShareKey()
    ensures CompanyKey(" acme corp ") == CompanyKey("Acme Corp")
  {
    AcmeSpacedIsPadded();
    AcmeLowered();
    AcmePaddingIgnored();
  }

  /** The scenarios' website starts with the scheme prefix. */
  lemma AcmeWebsiteIsHttp()
    ensures StartsWith("https://acme.com", HttpPrefix)
  {
    assert "https://acme.com"[..4] == HttpPrefix;
  }

  /** A run over two unfilled rows with no stop processes both, the second
      with the sheet and the cache the first left. */
  lemma RunTwoRows(src: seq<Row>, stop: StopFlag, env: Env)
    requires |src| == 2 && !Filled(src[0].body) && !Filled(src[1].body) && !stop(0) && !stop(1)
    ensures var s0 := ProcessRow(src, 0, map[], env);
            var s1 := ProcessRow(src[0 := src[0].(body := s0.body)], 1, s0.cache, env);
            Run(src, stop, env)
              == Batch([src[0].(body := s0.body), src[1].(body := s1.body)], [s0.visit, s1.visit], s1.cache, None)
  {
    var s0 := ProcessRow(src, 0, map[], env);
    var sheet1 := src[0 := src[0].(body := s0.body)];
    var s1 := ProcessRow(sheet1, 1, s0.cache, env);
    var b0 := RunPrefix(src, 0, stop, env);
    assert b0 == Start(src);
    var b1 := RunPrefix(src, 1, stop, env);
    assert b1 == VisitRow(b0, stop, env);
    assert b1 == Batch(sheet1, [s0.visit], s0.cache, None);
    assert RunPrefix(src, 2, stop, env) == VisitRow(b1, stop, env);
    assert b1.rows[1 := src[1].(body := s1.body)] == [src[0].(body := s0.body), src[1].(body := s1.body)];
  }

  /** The fixed scraper hands back a non-empty site text for any row and
      website. */
  lemma FixedPageFetched(page: string, reply: Result<string, string>, i: nat, url: string) returns (text: string)
    requires page != ""
    ensures SiteText(FixedEnv(Some(page), reply), i, url) == Some(text) && text != ""
  {
    var env := FixedEnv(Some(page), reply);
    assert env.scrape(i, url) == Some(page);
    text := SiteText(env, i, url).value;
    assert text == if |page| <= MaxSiteText then page else page[..MaxSiteText];
  }

  /** An unseen company with a reachable website and a working generator
      gets the trimmed reply, which is then cached under its key. */
  lemma UnseenCompanyGenerates(sheet: seq<Row>, i: nat, cache: map<string, string>, page: string, reply: string)
    requires i < |sheet| && !Filled(sheet[i].body) && Stats.HoldsText(sheet)
    requires CompanyKey(sheet[i].company) !in cache
    requires StartsWith(sheet[i].website, HttpPrefix) && page != ""
    ensures var s := ProcessRow(sheet, i, cache, FixedEnv(Some(page), Success(reply)));
      && s.visit.outcome == Generated && s.body == Some(Trim(reply))
      && s.cache == cache[CompanyKey(sheet[i].company) := Trim(reply)]
  {
    var env := FixedEnv(Some(page), Success(reply));
    var text := FixedPageFetched(page, Success(reply), i, sheet[i].website);
    ProcessRowGenerates(sheet, i, cache, env, text, reply);
  }

  /** A company already in the cache copies the cached text and calls
      nothing but the pause. */
  lemma SeenCompanyCopies(sheet: seq<Row>, i: nat, cache: map<string, string>, env: Env)
    requires i < |sheet| && !Filled(sheet[i].body) && Stats.HoldsText(sheet)
    requires CompanyKey(sheet[i].company) in cache
    ensures ProcessRow(sheet, i, cache, env)
         == Step(Some(cache[CompanyKey(sheet[i].company)]), cache, Visit(CacheHit, [Pause]))
  {
  }

  /** Two spellings of one company: only the first row generates, the
      second copies its text without fetching or generating. */
  lemma SecondSpellingCopiesFirst(page: string, reply: string, industry: string)
    requires page != ""
    ensures var r := Run([Row("Acme Corp", "https://acme.com", industry, NewCell),
                          Row(" acme corp ", "https://acme.com", industry, NewCell)],
                         NeverStop, FixedEnv(Some(page), Success(reply)));
      && |r.log| == 2
      && r.log[0].outcome == Generated
      && r.log[1].outcome == CacheHit
      && r.log[1].calls == [Pause]
      && r.rows[0].body == r.rows[1].body == Some(Trim(reply))
  {
    var src := [Row("Acme Corp", "https://acme.com", industry, NewCell),
                Row(" acme corp ", "https://acme.com", industry, NewCell)];
    var env := FixedEnv(Some(page), Success(reply));
    RunTwoRows(src, NeverStop, env);
    AcmeWebsiteIsHttp();
    assert src[0].body.Some? && Stats.HoldsText(src);
    UnseenCompanyGenerates(src, 0, map[], page, reply);
    var s0 := ProcessRow(src, 0, map[], env);
    var sheet1 := src[0 := src[0].(body := s0.body)];
    assert sheet1[1].body.Some? && Stats.HoldsText(sheet1);
    AcmeSpellingsShareKey();
    SeenCompanyCopies(sheet1, 1, s0.cache, env);
  }

  /** A generator whose first call, made for row 0, raises `message`, and
      whose later calls return `reply`. */
  function RetryEnv(page: string, message: string, reply: string): Env {
    Env((i, u) => Some(page), (i, p) => if i == 0 then Failure(message) else Success(reply),
        Industry.ClientReferences, "profile", "examples")
  }

  /** The retrying environment's scraper hands back a non-empty site text. */
  lemma RetryPageFetched(page: string, message: string, reply: string, i: nat, url: string) returns (text: string)
    requires page != ""
    ensures SiteText(RetryEnv(page, message, reply), i, url) == Some(text) && text != ""
  {
    var env := RetryEnv(page, message, reply);
    assert env.scrape(i, url) == Some(page);
    text := SiteText(env, i, url).value;
    assert text == if |page| <= MaxSiteText then page else page[..MaxSiteText];
  }

  /** A two-row run whose two steps are known. */
  lemma RunTwoKnownRows(src: seq<Row>, env: Env, s0: Step, s1: Step)
    requires |src| == 2 && !Filled(src[0].body) && !Filled(src[1].body)
    requires ProcessRow(src, 0, map[], env) == s0
    requires ProcessRow(src[0 := src[0].(body := s0.body)], 1, s0.cache, env) == s1
    ensures Run(src, NeverStop, env)
         == Batch([src[0].(body := s0.body), src[1].(body := s1.body)], [s0.visit, s1.visit], s1.cache, None)
  {
    RunTwoRows(src, NeverStop, env);
  }

  /** A failed generation is not cached, so the next row of the same
      company fetches and generates again, and this time can succeed. */
  lemma FailedGenerationIsRetried(row: Row, page: string, message: string, reply: string)
    requires !Filled(row.body) && row.body.Some? && StartsWith(row.website, HttpPrefix) && page != ""
    ensures var r := Run([row, row], NeverStop, RetryEnv(page, message, reply));
      && |r.log| == 2
      && r.log[0].outcome == GenerationFailed(message)
      && r.rows[0].body == Some(ErrorPrefix + message)
      && r.log[1].outcome == Generated
      && |r.log[1].calls| == 3
      && r.log[1].calls[0] == Fetch(row.website)
      && r.log[1].calls[1].Generate?
      && r.rows[1].body == Some(Trim(reply))
  {
    var src := [row, row];
    var env := RetryEnv(page, message, reply);
    assert src[0].body.Some? && Stats.HoldsText(src);
    var text0 := RetryPageFetched(page, message, reply, 0, row.website);
    ProcessRowRaises(src, 0, map[], env, text0, message);
    var s0 := Step(Some(ErrorPrefix + message), map[],
                   Visit(GenerationFailed(message), [Fetch(row.website), Generate(PromptFor(row, text0, env))]));
    var sheet1 := src[0 := row.(body := s0.body)];
    assert sheet1[1] == row;
    assert sheet1[0].body.Some? && Stats.HoldsText(sheet1);
    var text1 := RetryPageFetched(page, message, reply, 1, row.website);
    ProcessRowGenerates(sheet1, 1, map[], env, text1, reply);
    var s1 := Step(Some(Trim(reply)), map[CompanyKey(row.company) := Trim(reply)],
                   Visit(Generated, [Fetch(row.website), Generate(PromptFor(row, text1, env)), Pause]));
    RunTwoKnownRows(src, env, s0, s1);
  }

  /** A sheet whose `Email Body` column holds no value in any cell: the
      progress statistics raise at the first row, which gets the accessor
      error with no fetch, no generation and no pause; that error text
      makes the column hold text, so the second row is processed as usual. */
  lemma EmptyColumnFailsFirstRow(row: Row, page: string, reply: string)
    requires row.body.None? && StartsWith(row.website, HttpPrefix) && page != ""
    ensures var r := Run([row, row], NeverStop, FixedEnv(Some(page), Success(reply)));
      && |r.log| == 2
      && r.log[0] == Visit(StatsFailed(Stats.StrAccessorError), [])
      && r.rows[0].body == Some(ErrorPrefix + Stats.StrAccessorError)
      && r.log[1].outcome == Generated
      && r.rows[1].body == Some(Trim(reply))
  {
    var src := [row, row];
    var env := FixedEnv(Some(page), Success(reply));
    assert !Stats.HoldsText(src) by {
      assert forall j :: 0 <= j < |src| ==> src[j].body.None?;
    }
    ProcessRowStatsFails(src, 0, map[], env);
    var s0 := Step(Some(ErrorPrefix + Stats.StrAccessorError), map[],
                   Visit(StatsFailed(Stats.StrAccessorError), []));
    var sheet1 := src[0 := row.(body := s0.body)];
    assert sheet1[1] == row;
    assert sheet1[0].body.Some? && Stats.HoldsText(sheet1);
    UnseenCompanyGenerates(sheet1, 1, map[], page, reply);
    var s1 := ProcessRow(sheet1, 1, map[], env);
    RunTwoKnownRows(src, env, s0, s1);
  }

  /** "automation" occurs in "industrial automation" at offset 11. */
  lemma AutomationOccurs()
    ensures OccursAt("industrial automation", "automation", 11)
  {
    assert "industrial automation"[11..21] == "automation";
  }

  /** "industrial automation" names two keys; the first in table order,
      automation, decides the reference text. */
  lemma FirstKeyInTableOrderWins()
    ensures Industry.ReferenceText(Industry.ClientReferences, "industrial automation")
         == Join(Industry.ClientReferences[0].1, Industry.ListSeparator)
  {
    var s := "industrial automation";
    AutomationOccurs();
    ContainsIff(s, "automation");
    assert Industry.ClientReferences[0].0 == "automation";
    Industry.ClientReferencesListed();
    Industry.ReferenceTextIsFirstMatch(Industry.ClientReferences, s, 0);
  }
}

=== FILE: sheet.dfy ===
/** One spreadsheet row and the two per-row notions the loop is built on:
    whether the row already holds an email body, and the normalised company
    name under which generated bodies are shared. */
module Sheet {
  import opened Wrappers
  import opened Text

  /** A row of the uploaded sheet. `body` is `None` where the `Email Body`
      cell holds no value (pandas' NaN). */
  datatype Row = Row(company: string, website: string, industry: string, body: Option<string>)

  /** A body at most this long does not count as already written. */
  const FilledThreshold: nat := 10

  /** The skip test of the loop: the cell holds a value whose text is longer
      than the threshold. */
  predicate Filled(body: Option<string>) {
    body.Some? && |body.value| > FilledThreshold
  }

  /** The deduplication key: the company name lower-cased, then stripped. */
  function CompanyKey(company: string): string {
    Trim(Lower(company))
  }

  /** Two rows are the same record apart from the `Email Body` cell. */
  predicate SameRecord(a: Row, b: Row) {
    a.company == b.company && a.website == b.website && a.industry == b.industry
  }

  /** The key ignores surrounding whitespace and the case of ASCII letters:
      " Acme Corp " and "acme corp" share one key. */
  lemma CompanyKeyIgnoresPaddingAndCase(a: string, company: string, b: string)
    requires AllSpace(a) && AllSpace(b)
    ensures CompanyKey(a + company + b) == CompanyKey(company)
    ensures CompanyKey(Lower(company)) == CompanyKey(company)
  {
    LowerAppend(a + company, b);
    LowerAppend(a, company);
    assert AllSpace(Lower(a)) && AllSpace(Lower(b));
    TrimIgnoresPadding(Lower(a), Lower(company), Lower(b));
    LowerIdempotent(company);
  }

  /** A key is its own key, so keys can be compared as they are stored. */
  lemma CompanyKeyIdempotent(company: string)
    ensures CompanyKey(CompanyKey(company)) == CompanyKey(company)
  {
    var l := Lower(company);
    LowerTrimCommute(l);
    LowerIdempotent(company);
    TrimIdempotent(l);
  }
}

=== FILE: stats.dfy ===
/** The summary counts shown while and after a batch runs: how many
    `Email Body` cells look generated, how many hold an error, and how many
    of the rows that makes. */
module Stats {
  import opened Wrappers
  import opened Text
  import opened Sheet

  /** The marker every recorded per-row failure starts with. */
  const ErrorMarker: string := "ERROR:"

  /** The message of the `AttributeError` pandas raises when the `.str`
      accessor is used on a column that does not hold text. */
  const StrAccessorError: string := "Can only use .str accessor with string values!"

  /** The data frame as the counting sees it: its rows, and whether it has
      an `Email Body` column at all. */
  datatype Frame = Frame(rows: seq<Row>, hasBodyColumn: bool)

  /** The `Email Body` column holds text, so that its `.str` accessor can be
      used: some cell holds a value, or the column has no cells. A CSV
      column whose every cell is empty is read as a column of numbers (all
      NaN); writing a text into any of its cells turns it into a text
      column. */
  predicate HoldsText(rows: seq<Row>) {
    |rows| == 0 || exists j :: 0 <= j < |rows| && rows[j].body.Some?
  }

  datatype Summary = Summary(generated: nat, errors: nat, totalProcessed: nat, totalRows: nat)

  /** A cell counts as generated when it holds text longer than the filled
      threshold that does not contain the marker anywhere. A missing value
      never counts. */
  predicate CountsAsGenerated(body: Option<string>) {
    body.Some? && !Contains(body.value, ErrorMarker) && |body.value| > FilledThreshold
  }

  /** A cell counts as an error when its text starts with the marker. */
  predicate CountsAsError(body: Option<string>) {
    body.Some? && StartsWith(body.value, ErrorMarker)
  }

  /** No cell is counted both ways: text starting with the marker contains it. */
  lemma ErrorIsNotGenerated(body: Option<string>)
    ensures CountsAsError(body) ==> !CountsAsGenerated(body)
  {
  }

  /** Indices of the rows counted as generated. */
  function GeneratedRows(rows: seq<Row>): set<nat> {
    set i: nat | i < |rows| && CountsAsGenerated(rows[i].body)
  }

  /** Indices of the rows counted as errors. */
  function ErrorRows(rows: seq<Row>): set<nat> {
    set i: nat | i < |rows| && CountsAsError(rows[i].body)
  }

  /** Counts generated and error cells, one row at a time from the end. */
  function Tally(rows: seq<Row>): (t: (nat, nat))
    ensures t.0 + t.1 <= |rows|
  {
    if |rows| == 0 then (0, 0)
    else
      var t := Tally(rows[..|rows| - 1]);
      var last := rows[|rows| - 1].body;
      ErrorIsNotGenerated(last);
      (t.0 + (if CountsAsGenerated(last) then 1 else 0),
       t.1 + (if CountsAsError(last) then 1 else 0))
  }

  /** Adding a row at the end adds its index to the matching set when it
      matches, and nothing otherwise. */
  lemma RowsSnoc(rows: seq<Row>)
    requires |rows| > 0
    ensures var n := |rows| - 1;
      GeneratedRows(rows)
        == GeneratedRows(rows[..n]) + (if CountsAsGenerated(rows[n].body) then {n} else {})
    ensures var n := |rows| - 1;
      ErrorRows(rows) == ErrorRows(rows[..n]) + (if CountsAsError(rows[n].body) then {n} else {})
    ensures |rows| - 1 !in GeneratedRows(rows[..|rows| - 1])
    ensures |rows| - 1 !in ErrorRows(rows[..|rows| - 1])
  {
    var n := |rows| - 1;
    var front := rows[..n];
    assert forall i :: 0 <= i < n ==> front[i] == rows[i];
  }

  /** The running tally agrees with the number of matching row indices. */
  lemma {:induction false} TallyCountsRows(rows: seq<Row>)
    ensures Tally(rows).0 == |GeneratedRows(rows)|
    ensures Tally(rows).1 == |ErrorRows(rows)|
    decreases |rows|
  {
    if |rows| > 0 {
      TallyCountsRows(rows[..|rows| - 1]);
      RowsSnoc(rows);
    }
  }

  /** `calculate_stats`: all four counts are zero without a frame or without
      an `Email Body` column; a column that does not hold text makes the
      `.str` accessor raise; otherwise `generated` and `errors` count the
      matching cells, and the processed total is their sum, bounded by the
      number of rows. */
  function CalculateStats(df: Option<Frame>): (r: Result<Summary, string>)
    ensures df.None? || !df.value.hasBodyColumn ==> r == Success(Summary(0, 0, 0, 0))
    ensures r.Failure? <==> df.Some? && df.value.hasBodyColumn && !HoldsText(df.value.rows)
    ensures r.Failure? ==> r.error == StrAccessorError
    ensures r.Success? && df.Some? && df.value.hasBodyColumn ==>
      && r.value.totalRows == |df.value.rows|
      && r.value.generated == |GeneratedRows(df.value.rows)|
      && r.value.errors == |ErrorRows(df.value.rows)|
    ensures r.Success? ==> r.value.totalProcessed == r.value.generated + r.value.errors <= r.value.totalRows
  {
    if df.None? || !df.value.hasBodyColumn then Success(Summary(0, 0, 0, 0))
    else if !HoldsText(df.value.rows) then Failure(StrAccessorError)
    else
      var t := Tally(df.value.rows);
      TallyCountsRows(df.value.rows);
      Success(Summary(t.0, t.1, t.0 + t.1, |df.value.rows|))
  }

  /** Rows counted as errors and rows counted as generated are disjoint. */
  lemma NoRowCountedTwice(rows: seq<Row>)
    ensures GeneratedRows(rows) * ErrorRows(rows) == {}
  {
    forall i | i in GeneratedRows(rows)
      ensures i !in ErrorRows(rows)
    {
      ErrorIsNotGenerated(rows[i].body);
    }
  }
}

=== FILE: text.dfy ===
/** The handful of Python string operations the row loop relies on:
    `str.lower`, `str.strip`, `str.startswith`, the substring test
    `key in text` and `', '.join`. */
module Text {

  /** Python's `str.isspace` for one character: the ASCII controls
      TAB..CR, the separators U+001C..U+001F, SPACE, NEL, NBSP and the
      Unicode space separators, line and paragraph separators. */
  predicate IsSpace(c: char) {
    var n := c as int;
    || (0x09 <= n <= 0x0D)
    || (0x1C <= n <= 0x20)
    || n == 0x85 || n == 0xA0 || n == 0x1680
    || (0x2000 <= n <= 0x200A)
    || n == 0x2028 || n == 0x2029 || n == 0x202F || n == 0x205F
    || n == 0x3000
  }

  predicate AllSpace(s: string) {
    forall k :: 0 <= k < |s| ==> IsSpace(s[k])
  }

  predicate IsAsciiUpper(c: char) {
    'A' <= c <= 'Z'
  }

  /** Lower-cases one character; only the ASCII letters A..Z are mapped. */
  function LowerChar(c: char): (d: char)
    ensures !IsAsciiUpper(d)
    ensures IsSpace(d) <==> IsSpace(c)
  {
    if IsAsciiUpper(c) then (c as int - 'A' as int + 'a' as int) as char else c
  }

  /** `str.lower`, restricted to ASCII letters. */
  function Lower(s: string): (r: string)
    ensures |r| == |s|
    ensures forall k :: 0 <= k < |r| ==> !IsAsciiUpper(r[k])
  {
    seq(|s|, k requires 0 <= k < |s| => LowerChar(s[k]))
  }

  /** Removes leading whitespace: what is left is a suffix of `s` that does
      not start with whitespace, and everything cut off was whitespace. */
  function TrimStart(s: string): (r: string)
    ensures |r| <= |s| && r == s[|s| - |r|..]
    ensures |r| > 0 ==> !IsSpace(r[0])
    ensures AllSpace(s[..|s| - |r|])
  {
    if |s| > 0 && IsSpace(s[0]) then
      var t := s[1..];
      var r := TrimStart(t);
      var cut := |s| - |r|;
      assert s[..cut] == [s[0]] + t[..|t| - |r|];
      r
    else s
  }

  /** Removes trailing whitespace: what is left is a prefix of `s` that does
      not end with whitespace, and everything cut off was whitespace. */
  function TrimEnd(s: string): (r: string)
    ensures |r| <= |s| && r == s[..|r|]
    ensures |r| > 0 ==> !IsSpace(r[|r| - 1])
    ensures AllSpace(s[|r|..])
  {
    if |s| > 0 && IsSpace(s[|s| - 1]) then
      var t := s[..|s| - 1];
      var r := TrimEnd(t);
      assert s[|r|..] == t[|r|..] + [s[|s| - 1]];
      r
    else s
  }

  /** Cutting whitespace off the front and then off the back leaves a slice
      with only whitespace around it. */
  lemma StripComposes(s: string, a: string, r: string)
    requires |a| <= |s| && a == s[|s| - |a|..] && AllSpace(s[..|s| - |a|])
    requires |r| <= |a| && r == a[..|r|] && AllSpace(a[|r|..])
    ensures StrippedAt(s, r, |s| - |a|)
  {
    var i := |s| - |a|;
    assert s[i..][..|r|] == s[i..i + |r|];
    assert s[i + |r|..] == a[|r|..];
  }

  /** `str.strip()` with no argument: a slice of `s` that neither starts
      nor ends with whitespace, with only whitespace cut from either end. */
  function Trim(s: string): (r: string)
    ensures |r| <= |s|
    ensures |r| > 0 ==> !IsSpace(r[0]) && !IsSpace(r[|r| - 1])
    ensures StrippedAt(s, r, |s| - |TrimStart(s)|)
  {
    var a := TrimStart(s);
    var r := TrimEnd(a);
    StripComposes(s, a, r);
    r
  }

  /** `r` is the slice of `s` at offset `i`, and everything of `s` outside
      that slice is whitespace. */
  predicate StrippedAt(s: string, r: string, i: int) {
    && 0 <= i && i + |r| <= |s|
    && r == s[i..i + |r|]
    && AllSpace(s[..i])
    && AllSpace(s[i + |r|..])
  }

  /** Leading whitespace never survives `TrimStart`. */
  lemma {:induction false} TrimStartSkipsSpace(a: string, s: string)
    requires AllSpace(a)
    ensures TrimStart(a + s) == TrimStart(s)
    decreases |a|
  {
    if |a| > 0 {
      assert (a + s)[0] == a[0];
      assert (a + s)[1..] == a[1..] + s;
      TrimStartSkipsSpace(a[1..], s);
    } else {
      assert a + s == s;
    }
  }

  /** Trailing whitespace never survives `TrimEnd`. */
  lemma {:induction false} TrimEndSkipsSpace(s: string, b: string)
    requires AllSpace(b)
    ensures TrimEnd(s + b) == TrimEnd(s)
    decreases |b|
  {
    if |b| > 0 {
      assert (s + b)[|s + b| - 1] == b[|b| - 1];
      assert (s + b)[..|s + b| - 1] == s + b[..|b| - 1];
      TrimEndSkipsSpace(s, b[..|b| - 1]);
    } else {
      assert s + b == s;
    }
  }

  /** Once a non-space character is met, `TrimStart` keeps the rest as is. */
  lemma {:induction false} TrimStartAppend(s: string, b: string)
    requires !AllSpace(s)
    ensures TrimStart(s + b) == TrimStart(s) + b
    decreases |s|
  {
    if IsSpace(s[0]) {
      assert (s + b)[1..] == s[1..] + b;
      TrimStartAppend(s[1..], b);
    }
  }

  /** A string made of whitespace strips to nothing from the left. */
  lemma {:induction false} TrimStartAllSpace(s: string)
    requires AllSpace(s)
    ensures TrimStart(s) == ""
    decreases |s|
  {
    if |s| > 0 {
      TrimStartAllSpace(s[1..]);
    }
  }

  /** Stripping twice strips nothing more. */
  lemma TrimIdempotent(s: string)
    ensures Trim(Trim(s)) == Trim(s)
  {
    var t := Trim(s);
    assert TrimStart(t) == t;
    assert TrimEnd(t) == t;
  }

  /** Whitespace around a string does not change what `strip` returns. */
  lemma TrimIgnoresPadding(a: string, s: string, b: string)
    requires AllSpace(a) && AllSpace(b)
    ensures Trim(a + s + b) == Trim(s)
  {
    assert a + s + b == a + (s + b);
    TrimStartSkipsSpace(a, s + b);
    if AllSpace(s) {
      assert AllSpace(s + b);
      TrimStartAllSpace(s + b);
      TrimStartAllSpace(s);
    } else {
      TrimStartAppend(s, b);
      TrimEndSkipsSpace(TrimStart(s), b);
    }
  }

  /** Lower-casing distributes over concatenation. */
  lemma LowerAppend(s: string, t: string)
    ensures Lower(s + t) == Lower(s) + Lower(t)
  {
  }

  /** Lower-casing a lower-cased string changes nothing. */
  lemma LowerIdempotent(s: string)
    ensures Lower(Lower(s)) == Lower(s)
  {
  }

  lemma {:induction false} LowerTrimStart(s: string)
    ensures Lower(TrimStart(s)) == TrimStart(Lower(s))
    decreases |s|
  {
    if |s| > 0 {
      assert Lower(s)[1..] == Lower(s[1..]);
      LowerTrimStart(s[1..]);
    }
  }

  lemma {:induction false} LowerTrimEnd(s: string)
    ensures Lower(TrimEnd(s)) == TrimEnd(Lower(s))
    decreases |s|
  {
    if |s| > 0 {
      assert Lower(s)[..|s| - 1] == Lower(s[..|s| - 1]);
      LowerTrimEnd(s[..|s| - 1]);
    }
  }

  /** Lower-casing keeps whitespace in place, so it commutes with `strip`. */
  lemma LowerTrimCommute(s: string)
    ensures Lower(Trim(s)) == Trim(Lower(s))
  {
    LowerTrimStart(s);
    LowerTrimEnd(TrimStart(s));
  }

  /** `s.startswith(p)`. */
  predicate StartsWith(s: string, p: string) {
    |p| <= |s| && s[..|p|] == p
  }

  /** `p` occurs in `s` starting at index `i`. */
  ghost predicate OccursAt(s: string, p: string, i: int) {
    0 <= i && i + |p| <= |s| && s[i..i + |p|] == p
  }

  /** Python's substring test `p in s`, scanning the start positions of `s`
      from left to right. */
  function Contains(s: string, p: string): bool
    decreases |s|
  {
    if StartsWith(s, p) then true
    else if |s| == 0 then false
    else Contains(s[1..], p)
  }

  /** The scan finds `p` exactly when `p` occurs somewhere in `s`. */
  lemma {:induction false} ContainsIff(s: string, p: string)
    ensures Contains(s, p) <==> exists i :: OccursAt(s, p, i)
    decreases |s|
  {
    if StartsWith(s, p) {
      assert OccursAt(s, p, 0);
    } else if |s| == 0 {
    } else {
      ContainsIff(s[1..], p);
      if exists i :: OccursAt(s[1..], p, i) {
        var i :| OccursAt(s[1..], p, i);
        assert s[1..][i..i + |p|] == s[i + 1..i + 1 + |p|];
        assert OccursAt(s, p, i + 1);
      }
      if exists i :: OccursAt(s, p, i) {
        var i :| OccursAt(s, p, i);
        assert i != 0;
        assert s[1..][i - 1..i - 1 + |p|] == s[i..i + |p|];
        assert OccursAt(s[1..], p, i - 1);
      }
    }
  }

  /** `sep.join(xs)`. */
  function Join(xs: seq<string>, sep: string): (r: string)
    ensures |xs| > 0 ==> StartsWith(r, xs[0])
    ensures |xs| > 0 ==> |r| >= |xs[0]|
  {
    if |xs| == 0 then ""
    else if |xs| == 1 then xs[0]
    else
      var rest := Join(xs[1..], sep);
      assert (xs[0] + sep + rest)[..|xs[0]|] == xs[0];
      xs[0] + sep + rest
  }
}

=== FILE: wrappers.dfy ===
/** Failure-carrying datatypes used for the results of the external
    collaborators (the website scraper and the text generator). */
module Wrappers {

  /** A value that may be missing: `None` stands for Python's `None` and
      for a spreadsheet cell that holds no value (pandas' NaN). */
  datatype Option<+T> = None | Some(value: T)

  /** The outcome of a call that may raise: `Failure` carries the text of
      the exception, as `str(e)` would render it. */
  datatype Result<+R, +E> = Success(value: R) | Failure(error: E)
}
